=== FILE: README.md ===
# fashion-store: coupons, purchases and authentication

A Dafny model of the business core of a small e-commerce backend made of gRPC
microservices over PostgreSQL:

- the **coupon service**: admin-only creation and deletion of coupons, the
  eligibility decision (`RetrieveCouponByCode` with `CheckUse`), redemption
  (`ApplyCoupon`) and the used-coupon listing;
- the **product service**: admin-only catalogue changes, the listing, the
  lookup and `PurchaseProduct`, which asks the coupon service whether a
  coupon may be used, prices the purchase and redeems the coupon inside its
  own transaction;
- the **authentication service**: `Register`, `Login`, `ForgotPassword` and
  `ResetPassword`, over a user table, a login-history table and an in-memory
  user cache;
- the repositories behind them and the helpers they share: nullable column
  constructors, the transaction combinator, `Coalesce`, the password and
  coupon-code generators, the request-context helpers and the mapping of
  HTTP headers onto gRPC metadata (bearer-token parsing).

How the model is built:

- A table is a sequence of rows in insertion order, with a `nextId` counter
  where the database assigns serial ids. A single-row query answers with the
  first matching row (`Rows.First`).
- A driver failure is an input. A repository function takes `fails: bool`;
  a service takes `failing: set<Step>`, naming the database calls that fail.
- `sql.ErrNoRows` and every other driver error are the two `Status.DbError`s.
- Results are gRPC codes (`Status.Code`). A plain Go error reaches the client
  as `Unknown`. `Panic` stands for a nil dereference in the handler.
- The caller's identity, which the services read from the request context,
  is an `Option<UserInfo>` parameter.
- The clock, random draws, the password hasher, the token issuer and the
  coupon service (as seen from the product service) are parameters.
- Instants are integers, with 0 as Go's zero time.
- Prices and coupon values are `real`.

Behaviour of the code that a reader might not expect, which the model
follows:

- the validity window is closed: both `from` and `to` still count;
- an unknown coupon code gives `Internal`, not `NotFound`, when checked for
  eligibility;
- redemption only logs a used-coupon row and never touches a counter;
- the grant rows `CreateCoupon` writes have NULL counters, read as 0, so a
  USER or PRODUCT coupon is never usable through them;
- the product-grant lookup filters on the grant row's own `id`, not on
  `coupon_id`;
- `Register` does not store the email;
- the bearer scheme must be exactly `Bearer`.

## Model

| member | source | states |
|---|---|---|
| Status.MapRemote | internal/product-management/service/product.go:277-289 | A coupon-service error seen by a purchase: NotFound and FailedPrecondition pass through; every other code becomes Internal. |
| Identity.ValidAdmin | internal/coupon-management/service/coupon.go:70-86 | Succeeds exactly when a caller is present and its role is ADMIN or SUPER_ADMIN, and then yields that caller; PermissionDenied otherwise. |
| PgTypes.PgTypeInt8 | pkg/postgres_client/type.go:10-15 | An integer is NULL exactly when it is zero; reading it back gives the integer. |
| PgTypes.PgTypeText | pkg/postgres_client/type.go:18-23 | A string is NULL exactly when it is empty; reading it back gives the string; an empty string matches no `column = $1` filter. |
| PgTypes.PgTypeTimestamp | pkg/postgres_client/type.go:26-31 | As written: the value is valid exactly when the instant is the zero time, the opposite of the other two constructors. |
| PgTypes.TimestampLosesInstant | pkg/postgres_client/type.go:26-31 | As written, every non-zero instant is stored as NULL and reads back as the zero time. |
| PgTypes.TimestampCounterexample | pkg/postgres_client/type.go:26-31 | One instant after zero does not survive the round trip as written, and does survive it corrected. |
| PgTypes.PgTypeTimestampCorrected | pkg/postgres_client/type.go:26-31 | Corrected: NULL exactly at the zero time, and every instant reads back unchanged. |
| StringUtil.Coalesce | pkg/string_util/util.go:4-12 | The result is "" exactly when every argument is empty; otherwise it is the first non-empty argument. |
| StringUtil.CoalesceEmpty | pkg/string_util/util.go:4-12 | With no arguments the result is "". |
| StringUtil.CoalesceSkipsEmpty | pkg/string_util/util.go:4-12 | Empty arguments in front never change the result. |
| Tx.Transaction | pkg/postgres_client/tx.go:11-29 | A failed begin never runs the body; an error from the body is returned wrapped and the state rolled back; the body's writes are kept exactly when begin, body and commit all succeed. |
| Tx.BeginFailureIgnoresBody | pkg/postgres_client/tx.go:12-17 | When begin fails, the result does not depend on the body at all. |
| Tx.ServiceError | internal/product-management/service/product.go:307-349 | A transaction error seen by a handler: the body's own status is returned unchanged; a begin or commit failure is a plain error, reported as Unknown. |
| Lru.Add | pkg/lru/cache.go:27-31 | Adding never fails; the key then holds the value; every other key keeps its value. |
| Lru.Get | pkg/lru/cache.go:34-41 | Succeeds exactly when the key is present, with its value. |
| Lru.Remove | pkg/lru/cache.go:44-50 | Succeeds exactly when the key was present; afterwards the key is absent and the other entries are unchanged. |
| Lru.GetAfterAdd | pkg/lru/cache.go:27-41 | A value just added is read back. |
| Lru.GetAfterRemove | pkg/lru/cache.go:34-50 | A removed key reads as missing. |
| Lru.OtherKeysUntouched | pkg/lru/cache.go:27-50 | Adding or removing one key does not change what any other key reads. |
| CryptoUtil.Pick | pkg/crypto_util/util.go:34-46 | One character per random draw, each taken from the character set. |
| CryptoUtil.PasswordClass | pkg/crypto_util/util.go:34-46 | Letters win over special characters, which win over digits; the set is empty exactly when no class is asked for. |
| CryptoUtil.ZeroBytes | pkg/crypto_util/util.go:34-46 | With no class asked for, the password is `length` zero bytes. |
| CryptoUtil.GeneratePassword | pkg/crypto_util/util.go:34-46 | The password has the requested length and every character comes from the single class chosen. |
| CryptoUtil.StringWithCharset | pkg/crypto_util/util.go:82-88 | One character per draw, each from the upper-case alphanumeric set. |
| CryptoUtil.AsciiUpper | pkg/crypto_util/util.go:78 | Upper-casing keeps the length and maps each character on its own: ASCII a-z become A-Z and everything else stays (narrower than `strings.ToUpper`, see Left out). |
| CryptoUtil.TwoDigits | pkg/crypto_util/util.go:59-76 | A number below 100 is written as exactly two decimal digits. |
| CryptoUtil.TwoDigitsRoundTrip | pkg/crypto_util/util.go:59-76 | Reading the two digits back gives the number. |
| CryptoUtil.GenerateCode | pkg/crypto_util/util.go:57-79 | The code is the upper-cased prefix, then two digits each for year mod 100, month and day, then five characters from the set. The length, in characters, is the prefix's plus 11 (see Left out for bytes and non-ASCII prefixes). |
| CryptoUtil.UpperConcat | pkg/crypto_util/util.go:78 | Upper-casing distributes over concatenation. |
| CryptoUtil.UpperKeepsNoLower | pkg/crypto_util/util.go:78 | A string with no lower-case letter is unchanged by upper-casing. |
| CryptoUtil.CharsetNoLower | pkg/crypto_util/util.go:49-52 | The code character set holds no lower-case letter. |
| CryptoUtil.CodeLayout | pkg/crypto_util/util.go:78 | Upper-casing the whole code only changes the prefix. |
| CryptoUtil.CodeParts | pkg/crypto_util/util.go:57-79 | The date digits and the random suffix sit at fixed offsets after the prefix. |
| CryptoUtil.CodeTailNoLower | pkg/crypto_util/util.go:59-79 | Date digits and charset characters contain no lower-case letter. |
| XContext.Valid | pkg/http_server/xcontext/context.go:21-27 | A user info is refused exactly when the instant is past its expiry. |
| XContext.AddExpired | pkg/http_server/xcontext/context.go:29-31 | The expiry becomes now plus the duration; the identity is unchanged. |
| XContext.ValidAfterAddExpired | pkg/http_server/xcontext/context.go:21-31 | After extending by d, the info is valid exactly up to now + d. |
| XContext.LatestUserInfo | pkg/http_server/xcontext/context.go:35-48 | The innermost user-info binding of a context, and none exactly when the context never bound one. |
| XContext.LatestSession | pkg/http_server/xcontext/context.go:51-64 | The innermost session binding, and none exactly when the context never bound one. |
| XContext.ExtractUserInfoFromContext | pkg/http_server/xcontext/context.go:40-48 | A user info is returned only when the context bound it; with no binding the error is "authorization not valid". |
| XContext.ExtractSessionFromContext | pkg/http_server/xcontext/context.go:56-64 | A session is returned only when the context bound it; with no binding the error is "session not valid". |
| XContext.UserInfoRoundTrip | pkg/http_server/xcontext/context.go:35-48 | Importing a user info and extracting it gives it back; importing nil makes extraction fail. |
| XContext.SessionRoundTrip | pkg/http_server/xcontext/context.go:51-64 | Importing a session and extracting it gives it back; importing nil makes extraction fail. |
| XContext.ImportsAreIndependent | pkg/http_server/xcontext/context.go:35-64 | Binding a session does not change the user info extracted, and vice versa. |
| Metadata.NatDigitsRoundTrip | pkg/http_server/metadata.go:72-79 | The decimal digits of a natural number parse back to it. |
| Metadata.DecimalRoundTrip | pkg/http_server/metadata.go:72-79 | The decimal form of a user id, sign included, parses back to the id. |
| Metadata.Cut | pkg/http_server/metadata.go:55-65 | Splits at the first separator: the head holds no separator and head + separator + tail is the input; if there is no separator, the whole input is the head. |
| Metadata.ImportUserInfoToMD | pkg/http_server/metadata.go:72-79 | Exactly the keys user_id (the id in decimal) and role. |
| Metadata.ImportSessionToMD | pkg/http_server/metadata.go:82-89 | Exactly the keys ip and user-agent. |
| Metadata.MapMetaDataWithBearerToken | pkg/http_server/metadata.go:46-69 | Every incoming value is kept. The ip gains the first non-empty X-Forwarded-For, and the user agent gains its own first non-empty value. User id and role are appended exactly when the bearer header verifies, and are left alone otherwise. |
| Metadata.NoHeaderNoUser | pkg/http_server/metadata.go:55-57 | With no Authorization header no user info is added, whatever the verifier accepts. |
| Metadata.BearerAccepted | pkg/http_server/metadata.go:55-65 | User info is added exactly when the header is "Bearer", a space and a token the verifier accepts. |
| Metadata.CutAt | pkg/http_server/metadata.go:58 | Cutting a head without separators, a separator and a tail gives back head and tail. |
| Metadata.SchemeIsExact | pkg/http_server/metadata.go:58-59 | A lower-case "bearer" scheme, or a header with no space, never adds user info. |
| Rows.Filter | internal/product-management/repository/postgres/product.go:117-138 | Keeps exactly the rows satisfying the predicate; the length is kept exactly when every row is kept. |
| Rows.Count | internal/product-management/repository/postgres/product.go:163-175 | Zero exactly when no row satisfies the predicate. |
| Rows.First | internal/coupon-management/repository/postgres/coupon.go:70-84 | A single-row query: some matching row, and none exactly when no row matches. |
| Rows.UpdateWhere | internal/product-management/repository/postgres/product.go:89-115 | An UPDATE: matching rows are rewritten, every other row is kept, positions are unchanged. |
| Rows.FilterCount | internal/product-management/repository/postgres/product.go:117-175 | Rows kept plus rows removed is the table size. |
| Rows.FirstAppend | internal/coupon-management/repository/postgres/coupon.go:70-84 | Appending a row never changes an earlier match; an appended non-matching row changes nothing. |
| Rows.FilterAppend | internal/product-management/repository/postgres/product.go:117-138 | Filtering distributes over appending one row. |
| CouponRepo.Create | internal/coupon-management/repository/postgres/coupon.go:24-43 | On success the row is appended with the next id, and that id is returned; a failure changes nothing. |
| CouponRepo.DeleteById | internal/coupon-management/repository/postgres/coupon.go:46-67 | ErrNoRows exactly when no row has the id. Otherwise exactly the rows with that id are removed. |
| CouponRepo.RetrieveByCode | internal/coupon-management/repository/postgres/coupon.go:70-84 | ErrNoRows exactly when no coupon has the code; a found coupon is stored and has the code. |
| CouponRepo.RetrieveAfterCreate | internal/coupon-management/repository/postgres/coupon.go:24-84 | A coupon created with a fresh code is found by that code, with its assigned id. |
| CouponRepo.FirstIsLast | internal/coupon-management/repository/postgres/coupon.go:70-84 | When only the appended row has the code, the lookup returns it. |
| UserCouponRepo.Create | internal/coupon-management/repository/postgres/user-coupon.go:22-35 | On success the grant is appended; a failure changes nothing. |
| UserCouponRepo.RetrieveByCouponIdUserId | internal/coupon-management/repository/postgres/user-coupon.go:43-57 | ErrNoRows exactly when no grant matches both the coupon and the user; a found grant matches both. |
| UserCouponRepo.RetrieveAfterCreate | internal/coupon-management/repository/postgres/user-coupon.go:22-57 | A grant just created is found. |
| ProductCouponRepo.Create | internal/coupon-management/repository/postgres/product-coupon.go:23-38 | Appends a grant with the next id and NULL counters, read as 0. |
| ProductCouponRepo.DeleteByCouponId | internal/coupon-management/repository/postgres/product-coupon.go:41-62 | ErrNoRows exactly when no grant names the coupon. Otherwise exactly those grants are removed. |
| ProductCouponRepo.RetrieveByCouponId | internal/coupon-management/repository/postgres/product-coupon.go:65-79 | The filter is on the grant row's own id: ErrNoRows exactly when no grant has that row id. |
| ProductCouponRepo.LookupUsesRowId | internal/coupon-management/repository/postgres/product-coupon.go:68-72 | A grant for coupon 2, stored as row 1, is not found by coupon id 2. |
| UsedCouponRepo.Create | internal/coupon-management/repository/postgres/used-coupon.go:73-87 | On success exactly one record is appended; a failure changes nothing. |
| UsedCouponRepo.CreateTwice | internal/coupon-management/repository/postgres/used-coupon.go:73-87 | Two redemptions of the same pair count two more uses. |
| UsedCouponRepo.MatchingCoupons | internal/coupon-management/repository/postgres/used-coupon.go:22-70 | The coupons whose id is the record's coupon id. |
| UsedCouponRepo.PairWith | internal/coupon-management/repository/postgres/used-coupon.go:22-70 | Pairs one record with each of the given coupons. |
| UsedCouponRepo.JoinByUser | internal/coupon-management/repository/postgres/used-coupon.go:22-70 | The inner join: a pair is listed exactly when the record belongs to the user and the coupon's id is the record's coupon id. |
| UsedCouponRepo.ListUsedCouponByUserId | internal/coupon-management/repository/postgres/used-coupon.go:22-70 | Corrected: fails exactly when the driver fails. Otherwise it lists exactly the joined pairs of the user. |
| UsedCouponRepo.ListUsedCouponByUserIdAsWritten | internal/coupon-management/repository/postgres/used-coupon.go:22-70 | As written: fails exactly when the driver fails or the user has a redemption of an existing coupon (the first joined row fails to scan); otherwise the empty list. |
| UsedCouponRepo.RedeemedListingFailsAsWritten | internal/coupon-management/repository/postgres/used-coupon.go:30-59 | For any redemption of an existing coupon, the as-written listing fails while the corrected one lists the pair. |
| UsedCouponRepo.OrphanOmitted | internal/coupon-management/repository/postgres/used-coupon.go:22-70 | A record whose coupon no longer exists is left out of the listing. |
| CouponService.NewCode | internal/coupon-management/service/coupon.go:103 | A new coupon's code is 17 characters starting with "COUPON". |
| CouponService.CreateBody | internal/coupon-management/service/coupon.go:100-141 | The transaction body fails exactly when the coupon insert fails, or the insert of the grant the request calls for fails. |
| CouponService.CreateCoupon | internal/coupon-management/service/coupon.go:90-147 | Non-admins get PermissionDenied. Internal exactly when begin, an insert or commit fails, and then nothing changes. On success the coupon is appended with the caller as creator and a 17-character code. The user or product grant written, if any, matches the request's target. |
| CouponService.DeleteCouponById | internal/coupon-management/service/coupon.go:151-166 | For an admin, Internal exactly when the delete fails or no coupon has the id. On success exactly that coupon is removed and no other table changes. |
| CouponService.RetrieveCouponByCode | internal/coupon-management/service/coupon.go:170-238 | The only errors are Internal (including an unknown code) and a panic. A usable answer echoes the coupon. With CheckUse: outside the window it is unusable; LIMITED is usable exactly when used < total; USER with no caller id panics, and USER or PRODUCT use the grant row's used < total, Internal when the grant lookup fails; any other type is usable. An unusable answer carries no details. |
| CouponService.CheckUseIsEligibility | internal/coupon-management/service/coupon.go:179-223 | Against the independent rule `Eligible` (inside the window, and a LIMITED count or a USER/PRODUCT grant with uses left, or another type): an answer is usable exactly when the coupon is eligible, and an eligible coupon is always answered usable. |
| CouponService.ApplyCoupon | internal/coupon-management/service/coupon.go:274-306 | PermissionDenied exactly when there is no caller. A failing lookup is Internal; otherwise NotFound exactly when no coupon has the code. Success appends exactly one used-coupon record for the caller and changes nothing else. With a caller and a known code it succeeds exactly when neither the lookup nor the insert fails. |
| CouponService.Items | internal/coupon-management/service/coupon.go:255-263 | One listing entry per joined pair, in order. |
| CouponService.ListUsedCoupon | internal/coupon-management/service/coupon.go:241-269 | Over the corrected listing: Internal exactly when the context has no user or the query fails. Otherwise an entry is listed exactly when that user redeemed that coupon. |
| CouponService.ListUsedCouponAsWritten | internal/coupon-management/service/coupon.go:241-269 | Over the listing as written: Internal exactly when there is no user, the query fails, or the user has redeemed an existing coupon; otherwise the empty list, so no entry is ever listed. |
| CouponService.UnknownCodeIsInternal | internal/coupon-management/service/coupon.go:172-176 | An unknown code answers Internal. |
| CouponService.UncheckedIgnoresWindowAndGrants | internal/coupon-management/service/coupon.go:170-238 | Without CheckUse the answer depends neither on the clock nor on the grant tables, and a found coupon is usable. |
| CouponService.OutsideWindowUnusable | internal/coupon-management/service/coupon.go:180-187 | With CheckUse, a coupon outside its window is unusable. |
| CouponService.LimitedAtWindowEdges | internal/coupon-management/service/coupon.go:180-199 | A LIMITED coupon with uses left is usable at exactly `from` and at exactly `to`. One whose total is NULL is never usable. |
| CouponService.ApplyKeepsEligibility | internal/coupon-management/service/coupon.go:274-306 | A redemption never changes any later eligibility answer. |
| CouponService.ApplyTwice | internal/coupon-management/service/coupon.go:274-306 | Redeeming twice succeeds twice, logs two uses and leaves the coupon and grant tables alone. |
| CouponService.CreateThenRetrieve | internal/coupon-management/service/coupon.go:90-238 | A created coupon is found by its code, and echoes the requested fields with no use recorded. |
| CouponService.FreshUserGrantUnusable | internal/coupon-management/service/coupon.go:119-222 | A USER coupon is never usable through the grant CreateCoupon writes for it. |
| CouponService.UserGrantIsLast | internal/coupon-management/repository/postgres/user-coupon.go:43-57 | When only the appended grant names its coupon, the lookup returns it. |
| CouponService.ApplyThenList | internal/coupon-management/service/coupon.go:241-306 | Over the corrected listing, a successful redemption appears in the redeeming user's listing. |
| CouponService.ApplyThenListAsWritten | internal/coupon-management/service/coupon.go:241-306 | As written, after a successful redemption the redeeming user's listing is Internal. |
| ProductRepo.List | internal/product-management/repository/postgres/product.go:22-51 | Fails exactly on a driver error or a negative offset or limit. Otherwise it gives the rows from `offset` on, at most `limit` of them, in table order. |
| ProductRepo.RetrieveById | internal/product-management/repository/postgres/product.go:53-67 | ErrNoRows exactly when no product has the id; a found product has it. |
| ProductRepo.Create | internal/product-management/repository/postgres/product.go:69-87 | On success the row is appended with the next id, and that id is returned. |
| ProductRepo.UpdateById | internal/product-management/repository/postgres/product.go:89-115 | ErrNoRows exactly when no product has the id. Each non-NULL field of the patch replaces the stored one (COALESCE). Every other row is unchanged. |
| ProductRepo.DeleteById | internal/product-management/repository/postgres/product.go:117-138 | ErrNoRows exactly when no product has the id. Otherwise exactly that product is removed. |
| ProductRepo.DeleteByIds | internal/product-management/repository/postgres/product.go:140-161 | ErrNoRows exactly when none of the ids exists. Otherwise exactly the listed products are removed. |
| ProductRepo.Count | internal/product-management/repository/postgres/product.go:163-175 | The number of products. |
| ProductRepo.CountAfterCreate | internal/product-management/repository/postgres/product.go:69-87 | A create adds one to the count. |
| ProductRepo.CountAfterDelete | internal/product-management/repository/postgres/product.go:117-138 | A delete lowers the count by the number of rows with the id. |
| ProductRepo.ListPagesTile | internal/product-management/repository/postgres/product.go:22-51 | Consecutive pages concatenate to the longer listing. |
| ProductRepo.UpdateKeepsIds | internal/product-management/repository/postgres/product.go:89-115 | An update never changes any row's id. |
| ProductService.CreateProduct | internal/product-management/service/product.go:85-111 | Non-admins get PermissionDenied; Internal exactly when the insert fails; on success the product is appended with the caller as creator. |
| ProductService.DeleteProductById | internal/product-management/service/product.go:115-134 | For an admin: NotFound exactly when the id is missing, Internal exactly when the driver fails; otherwise exactly that product is removed. |
| ProductService.DeleteProductByIds | internal/product-management/service/product.go:138-152 | For an admin, Internal exactly when the delete fails or none of the ids exists. |
| ProductService.Views | internal/product-management/service/product.go:164-175 | One view per product, in order. |
| ProductService.ListProduct | internal/product-management/service/product.go:156-189 | No permission check. Internal exactly when a query fails or a paging bound is negative. Otherwise the page holds min(limit, rows after offset) views, the i-th being the view of row offset + i, with the table size. |
| ProductService.ListProductPagesJoin | internal/product-management/service/product.go:156-189 | Two adjacent pages of lengths a and b together are the page of length a + b. |
| ProductService.ListProductWholeTable | internal/product-management/service/product.go:156-189 | A page from 0 as long as the table lists every product, in table order. |
| ProductService.RetrieveProductById | internal/product-management/service/product.go:193-215 | As written: a missing product is Internal, never NotFound. |
| ProductService.MissingProductIsInternal | internal/product-management/service/product.go:197 | Looking up id 7 in an empty table answers Internal. |
| ProductService.RetrieveProductByIdCorrected | internal/product-management/service/product.go:193-215 | Corrected: NotFound exactly when the id is missing, Internal exactly when the driver fails. |
| ProductService.CreateThenRetrieve | internal/product-management/service/product.go:85-215 | A created product is found by its new id, with the requested fields. |
| ProductService.UpdateProductById | internal/product-management/service/product.go:219-243 | For an admin: NotFound exactly when the id is missing. On success name, type and description are replaced, the price is kept and every other row is unchanged. |
| ProductService.DiscountTotal | internal/product-management/service/product.go:268-303 | Percent gives the amount d with d * 100 = price * percent, between 0 and the price when the percent is in 0..100. A fixed value replaces the price. Any other kind leaves the price. |
| ProductService.PercentIsShare | internal/product-management/service/product.go:299-300 | Any x with x * 100 = price * percent is the percent discount: the amount is determined by that equation alone. |
| ProductService.PercentWithinPrice | internal/product-management/service/product.go:298-300 | A percentage between 0 and 100 of a non-negative price lies between 0 and the price. |
| ProductService.Record | internal/product-management/service/product.go:309-318 | The row carries the product, the user, the price, the coupon and the discount as given. The total is never negative: the discount when that is non-negative, 0 when it is negative. |
| ProductService.PurchaseBody | internal/product-management/service/product.go:307-347 | A failed insert is a plain error. A failed redemption is mapped like the check's errors. The body succeeds exactly when the insert succeeds and either no coupon was given or the redemption passed. |
| ProductService.Commit | internal/product-management/service/product.go:307-349 | The purchase row is kept exactly when begin, insert, redemption and commit all succeed. The redemption call is made exactly when the insert ran and a coupon was given. |
| ProductService.PurchaseProduct | internal/product-management/service/product.go:248-353 | No user: PermissionDenied. Missing product: NotFound. Lookup failure: Internal. The eligibility check is the first remote call, and a redemption happens only after an eligible check. A failed check maps its remote error and an ineligible coupon is FailedPrecondition, both with only the check made and nothing written. On success exactly one purchase row is appended, priced by the coupon's answer. |
| ProductService.InsertFailureSkipsApply | internal/product-management/service/product.go:320-323 | A failed purchase insert is reported as Unknown and the coupon is never redeemed. |
| ProductService.ApplyFailureRollsBack | internal/product-management/service/product.go:326-343 | A failed redemption is mapped like the check's errors, and the purchase row is rolled back. |
| ProductService.CommitFailureAfterRedemption | internal/product-management/service/product.go:307-349 | A commit failure rolls the purchase back after the coupon has already been redeemed remotely. |
| ProductService.FixedValueReplacesPrice | internal/product-management/service/product.go:301-302 | A fixed-value coupon's amount does not depend on the price. |
| ProductService.PurchaseWithCoupon | internal/product-management/service/product.go:268-349 | An eligible coupon appends one purchase row: the listed price, the discounted amount and that amount clamped at zero. |
| ProductService.PurchaseWithoutCoupon | internal/product-management/service/product.go:264-349 | Without a coupon no remote call is made; the purchase succeeds exactly when begin, insert and commit do, and then appends one row at the listed price. |
| CouponClient.AnswerOf | internal/product-management/service/product.go:272-303 | The purchase flow reads the eligibility flag, discount type and value from the coupon service's reply. |
| CouponClient.Check | internal/product-management/service/product.go:272-276 | The check a purchase makes (CheckUse on, the buyer's id) errs only with Internal or a panic. A usable answer means the coupon exists and is inside its window. |
| CouponClient.UnknownCouponPurchaseIsInternal | internal/product-management/service/product.go:277-289 | A purchase with an unknown coupon code fails with Internal, not NotFound. |
| CouponClient.ExpiredCouponPurchaseRefused | internal/product-management/service/product.go:292-294 | A purchase with a coupon outside its window fails with FailedPrecondition, writes nothing and never redeems. |
| CouponClient.LimitedCouponPurchase | internal/product-management/service/product.go:248-353 | Against the real coupon service, a LIMITED coupon with uses left succeeds, is redeemed once for the caller, and appends exactly one purchase row for the product, the caller and the coupon, whose discount is the coupon's amount and whose total is that amount floored at 0. |
| UserRepo.RetrieveByUserName | internal/user-management/repository/postgres/user.go:25-39 | ErrNoRows exactly when no non-NULL user name equals the one asked for. |
| UserRepo.RetrieveByEmail | internal/user-management/repository/postgres/user.go:65-79 | ErrNoRows exactly when no non-NULL email equals the one asked for. |
| UserRepo.Create | internal/user-management/repository/postgres/user.go:43-61 | On success the row is appended with the next id, and that id is returned. |
| UserRepo.UpdatePassword | internal/user-management/repository/postgres/user.go:83-105 | ErrNoRows exactly when no user has the email. Every user with it gets the new password; nothing else changes. |
| UserRepo.RetrieveAfterUpdatePassword | internal/user-management/repository/postgres/user.go:65-105 | After a password update, the lookup by email sees the new password. |
| LoginHistoryRepo.Create | internal/user-management/repository/postgres/login-history.go:25-38 | On success exactly one history row is appended. |
| LoginHistoryRepo.UpdateLogout | internal/user-management/repository/postgres/login-history.go:42-65 | ErrNoRows exactly when no row has that user and token. Those rows get the logout time; others are unchanged. |
| LoginHistoryRepo.LogoutAfterCreate | internal/user-management/repository/postgres/login-history.go:25-65 | A session just recorded can be logged out. |
| UserCache.KeysNeverCollide | internal/user-management/repository/cache/user.go:31-84 | The user-name and email key namespaces never meet. |
| UserCache.RetrieveByUserName | internal/user-management/repository/cache/user.go:31-38 | A hit exactly when the user name was stored. |
| UserCache.StoreByUserName | internal/user-management/repository/cache/user.go:41-47 | Storing never fails and touches neither the counters nor the reset tokens. |
| UserCache.RemoveByUserName | internal/user-management/repository/cache/user.go:50-56 | Succeeds exactly when the user name was stored; otherwise nothing changes. |
| UserCache.RetrieveByEmail | internal/user-management/repository/cache/user.go:59-66 | A hit exactly when the email was stored. |
| UserCache.StoreByEmail | internal/user-management/repository/cache/user.go:69-75 | Storing never fails and touches neither the counters nor the reset tokens. |
| UserCache.RemoveByEmail | internal/user-management/repository/cache/user.go:78-84 | Succeeds exactly when the email was stored; otherwise nothing changes. |
| UserCache.StoreThenRetrieve | internal/user-management/repository/cache/user.go:31-75 | A stored user is read back under the same name or email. |
| UserCache.StoreKeepsOtherNamespace | internal/user-management/repository/cache/user.go:31-75 | Storing by name never changes a lookup by email, and vice versa. |
| UserCache.RemoveThenRetrieve | internal/user-management/repository/cache/user.go:31-84 | A removed entry misses. |
| UserCache.IncrementForgotPassword | internal/user-management/repository/cache/user.go:87-97 | As written: a stored counter goes up by one, but a missing one answers 1 and stays missing. |
| UserCache.CounterNeverStored | internal/user-management/repository/cache/user.go:87-97 | As written, any number of increments of a missing counter answers 1 and stores nothing. |
| UserCache.IncrementForgotPasswordCorrected | internal/user-management/repository/cache/user.go:87-97 | Corrected: the counter, 0 when missing, goes up by one and is stored. |
| UserCache.CorrectedCountsEveryCall | internal/user-management/repository/cache/user.go:87-97 | Corrected, the k-th increment of a new email answers k and stores k. |
| UserCache.StoreResetToken | internal/user-management/repository/cache/user.go:100-108 | Storing a token never fails and touches neither users nor counters. |
| UserCache.IsExistResetToken | internal/user-management/repository/cache/user.go:111-123 | Passes exactly when the "email\|token" key is stored and marked. |
| UserCache.RemoveByResetToken | internal/user-management/repository/cache/user.go:126-134 | Succeeds exactly when the "email\|token" key was stored; users and counters are untouched. |
| UserCache.ResetTokenLifecycle | internal/user-management/repository/cache/user.go:100-134 | A stored token exists until it is removed, and is gone after. |
| UserCache.ResetKeyAmbiguous | internal/user-management/repository/cache/user.go:100-123 | Keys are joined with an unescaped "\|": a token stored for email "a\|b" with token "c" is accepted for email "a" with token "b\|c". |
| AuthService.RetrieveUserByUserName | internal/user-management/service/auth.go:73-80 | A cache hit is returned without touching the database; a miss falls through to the table. |
| AuthService.RetrieveUserByEmail | internal/user-management/service/auth.go:82-89 | A cache hit is returned without touching the database; a miss falls through to the table. |
| AuthService.Register | internal/user-management/service/auth.go:92-126 | When neither lookup fails, AlreadyExists exactly when the user name or the email is taken. Internal when a lookup after a cache miss, the hash or the insert fails, and then nothing changes; with both names free it succeeds exactly when the hash and the insert do. On success one user row is appended with the hashed password. |
| AuthService.RegisterDoesNotStoreEmail | internal/user-management/service/auth.go:114-118 | A registration never changes the answer of any lookup by email. |
| AuthService.Login | internal/user-management/service/auth.go:129-173 | An unknown user or a wrong password is InvalidArgument, and a failing lookup is Internal. For a known user with the right password: no token is Internal, no session is InvalidArgument, a failed history insert is Internal, and otherwise the login succeeds with the user's id and the token. On success a history row with the session's ip and agent is written and the user is cached. |
| AuthService.CacheFailureIgnored | internal/user-management/service/auth.go:165-167 | Whether storing the user in the cache fails changes neither the reply nor the database. |
| AuthService.LoginThenCacheHit | internal/user-management/service/auth.go:165-167 | After a login the user is served from the cache, even when the database lookup would fail. |
| AuthService.ForgotPassword | internal/user-management/service/auth.go:188-227 | An unknown email is InvalidArgument and a failing lookup is Internal. The counter is read, incremented and stored (as written: not stored when it was missing); beyond five attempts it is Internal, and so is a failed token store. Otherwise a 15-letter token is stored for the email. The program's reply is empty and the token leaves only in the published message; the model returns it in place of that message. |
| AuthService.ForgotCacheCounter | internal/user-management/service/auth.go:197-203 | Over repeated requests for a known email the cached users stay; as written the email never gains a counter, corrected it counts the requests. |
| AuthService.LimitUnreachableAsWritten | internal/user-management/service/auth.go:197-203 | With the counter as written, every one of any number of requests for a known email without a stored counter issues a token: the limit never fires. |
| AuthService.LimitFiresCorrected | internal/user-management/service/auth.go:197-203 | With the corrected counter the first five requests issue a token and the sixth and every later one is Internal. |
| AuthService.ResetPassword | internal/user-management/service/auth.go:229-253 | Mismatched passwords are InvalidArgument and an unknown token is FailedPrecondition. With matching passwords and a stored token, a hashing or update failure is Internal and otherwise it succeeds. On success the email's password is updated and the token is dropped. |
| AuthService.ForgotThenReset | internal/user-management/service/auth.go:188-253 | The issued token resets the password once and is refused the second time. |

## Left out

- Logout: the service calls the history update with arguments that do not match its signature. Only the repository's `UpdateLogout` is modelled.
- The message that `ForgotPassword` publishes from a goroutine: it is fire-and-forget and is the only place the reset token leaves the program, whose reply is empty. The model returns the token in its `Ok` instead of publishing it.
- `userCouponRepo.DeleteByCouponID`: its body is an unimplemented panic and nothing calls it.
- The exact error of `ListUsedCouponByUserID` as written: the coupon half of the SELECT names used-coupon columns, and the schema of the coupons table is not part of this model, so whether the database already rejects the query when the join is empty is not modelled (the as-written member answers the empty list then). See Findings.
- LRU capacity eviction and time-to-live expiry: an entry stays until it is removed or overwritten.
- Password hashing and checking (bcrypt), JWT issuing and verification: these are parameters.
- The clock, `rand`, the network and the gRPC transport: these are parameters.
- `HashPassword` and `CheckPassword` in the crypto helpers: they wrap bcrypt. `genStringWithLength` only forwards to `stringWithCharset`, which is modelled as `CryptoUtil.StringWithCharset`.
- The NULL semantics of `pg_util`'s `sql.NullX` constructors (pkg/pg_util/type.go is not part of this model). The model takes every value a service writes through them as non-NULL, so `UpdateProductById` always replaces name, type and description.
- 64-bit wrap-around of ids, counters and prices: integers are unbounded and prices are real.
- The services' `database.Transaction` (pkg/database is not part of this model). It is taken to hand the body's error back unchanged (`Tx.ServiceError`).
- Row order of `List` and the used-coupon listing: the SQL has no ORDER BY, and the model assumes insertion order.
- Context keys: the model assumes two extractions with the same key type see the same binding.
- CryptoUtil.AsciiUpper: maps only ASCII a-z, while `strings.ToUpper` maps every Unicode letter; the code's one caller passes the ASCII prefix "COUPON".
- CryptoUtil.GenerateCode: the length is counted in characters, not UTF-8 bytes, and the prefix is upper-cased ASCII-only; the two agree for ASCII prefixes such as "COUPON".
- ProductService.DiscountTotal: multiplication and division are exact on reals, not float64.

## Findings

| source | as written | input that shows it | evidently intended | confidence | as-written member | corrected member |
|---|---|---|---|---|---|---|
| internal/user-management/repository/cache/user.go:87-97 | A missing counter is allocated and incremented but never stored in the map | Any number of forgot-password requests for an email with no counter: each one counts 1, so the five-attempt limit never fires | Store the new counter, so the k-th request counts k | not executed | UserCache.IncrementForgotPassword | UserCache.IncrementForgotPasswordCorrected |
| pkg/postgres_client/type.go:26-31 | `Valid: src.IsZero()`: the flag is inverted | Any non-zero instant, such as 1, is stored as NULL and reads back as the zero time | `Valid: !src.IsZero()`, like the Int8 and Text constructors | not executed | PgTypes.PgTypeTimestamp | PgTypes.PgTypeTimestampCorrected |
| internal/product-management/service/product.go:197 | The not-found branch tests `pgx.ErrNoRows`, while the repository returns `database/sql`'s ErrNoRows | Looking up id 7 in an empty product table answers Internal | NotFound for a missing product, as the other handlers of the service do | not executed | ProductService.RetrieveProductById | ProductService.RetrieveProductByIdCorrected |
| internal/coupon-management/repository/postgres/used-coupon.go:30-59 | The coupon half of the SELECT is `strings.Join(fieldNames, ",c.")` over the used-coupon field names, so a row has 6 + 6 columns while the scan offers 6 used-coupon plus 10 coupon destinations | A user with one redemption of an existing coupon: the first joined row fails to scan and the listing answers Internal, so no entry is ever listed | Select the coupon's own columns, so the scan matches and every redemption is listed with its coupon | not executed | UsedCouponRepo.ListUsedCouponByUserIdAsWritten | UsedCouponRepo.ListUsedCouponByUserId |

=== FILE: auth_service.dfy ===
/**
 * The authentication service: registration, login, and the
 * forgot/reset-password pair. Password hashing and checking, and token
 * signing, are parameters; the message published after a forgot-password
 * request is not modelled, so the reset token it would carry is returned.
 */
module AuthService {
  import opened Wrappers
  import opened Status
  import opened PgTypes
  import opened UserEntity
  import XContext
  import CryptoUtil
  import UserRepo
  import LoginHistoryRepo
  import UserCache
  import Rows

  datatype Db = Db(users: UserRepo.Table, history: LoginHistoryRepo.Table)

  /** The database and cache calls of this service, each of which may fail. */
  datatype Step =
    | UserLookupByName | UserLookupByEmail | UserInsert | HistoryInsert | PasswordUpdate
    | CacheStore | ResetTokenStore

  /**
   * `retrieveUserByUserName`: a cache hit is the answer; only a miss
   * falls back to the database, whose answer (error included) is returned.
   */
  function RetrieveUserByUserName(db: Db, cache: UserCache.State, userName: string, failing: set<Step>): (r: Result<User, DbError>)
    ensures UserCache.RetrieveByUserName(cache, userName).Ok? ==> r == Ok(UserCache.RetrieveByUserName(cache, userName).value)
    ensures UserCache.RetrieveByUserName(cache, userName).Err? ==>
      r == UserRepo.RetrieveByUserName(db.users, userName, UserLookupByName in failing)
  {
    match UserCache.RetrieveByUserName(cache, userName)
    case Ok(u) => Ok(u)
    case Err(_) => UserRepo.RetrieveByUserName(db.users, userName, UserLookupByName in failing)
  }

  /** `retrieveUserByEmail`: the same, keyed by email. */
  function RetrieveUserByEmail(db: Db, cache: UserCache.State, email: string, failing: set<Step>): (r: Result<User, DbError>)
    ensures UserCache.RetrieveByEmail(cache, email).Ok? ==> r == Ok(UserCache.RetrieveByEmail(cache, email).value)
    ensures UserCache.RetrieveByEmail(cache, email).Err? ==>
      r == UserRepo.RetrieveByEmail(db.users, email, UserLookupByEmail in failing)
  {
    match UserCache.RetrieveByEmail(cache, email)
    case Ok(u) => Ok(u)
    case Err(_) => UserRepo.RetrieveByEmail(db.users, email, UserLookupByEmail in failing)
  }

  /** Whether a user with that name is known, to the cache or to the table. */
  predicate NameTaken(db: Db, cache: UserCache.State, userName: string) {
    UserCache.UserNameKey(userName) in cache.users || exists u :: u in db.users.rows && TextEquals(u.userName, userName)
  }

  predicate EmailTaken(db: Db, cache: UserCache.State, email: string) {
    UserCache.EmailKey(email) in cache.users || exists u :: u in db.users.rows && TextEquals(u.email, email)
  }

  datatype RegisterRequest = RegisterRequest(userName: string, password: string, name: string, email: string)

  /** The row `Register` inserts: name, hashed password and display name; email and role stay NULL. */
  function NewUser(req: RegisterRequest, hashed: string): User {
    User(0, PgTypeText(req.userName), PgTypeText(hashed), PgTypeText(req.name), Text("", false), Text("", false))
  }

  /**
   * `Register`: AlreadyExists when the user name is taken, then when the
   * email is; Internal on any other lookup failure, a hashing failure or an
   * insert failure; otherwise the new user's id.
   */
  function Register(db: Db, cache: UserCache.State, req: RegisterRequest, hash: string -> Option<string>, failing: set<Step>): (r: (Result<int, Code>, Db))
    ensures r.0.Err? ==> r.1 == db && r.0.error in {AlreadyExists, Internal}
    ensures UserLookupByName !in failing ==>
      (NameTaken(db, cache, req.userName) <==> r.0 == Err(AlreadyExists) && RetrieveUserByUserName(db, cache, req.userName, failing).Ok?)
    ensures UserLookupByName !in failing && UserLookupByEmail !in failing ==>
      (r.0 == Err(AlreadyExists) <==> NameTaken(db, cache, req.userName) || EmailTaken(db, cache, req.email))
    ensures UserLookupByName in failing && UserCache.RetrieveByUserName(cache, req.userName).Err? ==> r == (Err(Internal), db)
    ensures UserLookupByName !in failing && !NameTaken(db, cache, req.userName)
            && UserLookupByEmail in failing && UserCache.RetrieveByEmail(cache, req.email).Err?
            ==> r == (Err(Internal), db)
    ensures UserLookupByName !in failing && UserLookupByEmail !in failing
            && !NameTaken(db, cache, req.userName) && !EmailTaken(db, cache, req.email) ==>
      (r.0.Ok? <==> hash(req.password).Some? && UserInsert !in failing)
    ensures hash(req.password).None? || UserInsert in failing ==> r.0.Err?
    ensures r.0.Ok? ==>
      && !NameTaken(db, cache, req.userName) && !EmailTaken(db, cache, req.email)
      && hash(req.password).Some?
      && r.0.value == db.users.nextId
      && r.1.history == db.history
      && r.1.users.rows == db.users.rows + [NewUser(req, hash(req.password).value).(id := r.0.value)]
  {
    match RetrieveUserByUserName(db, cache, req.userName, failing)
    case Ok(_) => (Err(AlreadyExists), db)
    case Err(DriverError) => (Err(Internal), db)
    case Err(ErrNoRows) =>
      match RetrieveUserByEmail(db, cache, req.email, failing)
      case Ok(_) => (Err(AlreadyExists), db)
      case Err(DriverError) => (Err(Internal), db)
      case Err(ErrNoRows) =>
        match hash(req.password)
        case None => (Err(Internal), db)
        case Some(pwd) =>
          var (res, users) := UserRepo.Create(db.users, NewUser(req, pwd), UserInsert in failing);
          if res.Err? then (Err(Internal), db) else (Ok(res.value), db.(users := users))
  }

  /**
   * `Register` never stores the email: no lookup by email, for any email,
   * answers differently after a registration.
   */
  lemma RegisterDoesNotStoreEmail(db: Db, cache: UserCache.State, req: RegisterRequest, hash: string -> Option<string>,
                                  failing: set<Step>, email: string)
    ensures UserRepo.RetrieveByEmail(Register(db, cache, req, hash, failing).1.users, email, false)
         == UserRepo.RetrieveByEmail(db.users, email, false)
  {
    var r := Register(db, cache, req, hash, failing);
    if r.0.Ok? {
      var row := NewUser(req, hash(req.password).value).(id := r.0.value);
      Rows.FirstAppend(db.users.rows, row, (u: User) => TextEquals(u.email, email));
    }
  }

  datatype LoginRequest = LoginRequest(userName: string, password: string)
  datatype LoginReply = LoginReply(userId: int, accessToken: string)

  /**
   * `Login`: an unknown user or a wrong password is InvalidArgument; a
   * token failure or a history failure is Internal; a context without a
   * session is InvalidArgument. On success a history row is written and the
   * user is cached under its name; a failure to cache is ignored.
   */
  function Login(db: Db, cache: UserCache.State, req: LoginRequest, checkPassword: (string, string) -> bool,
                 token: Option<string>, ctx: XContext.Context, now: Time, failing: set<Step>): (r: (Result<LoginReply, Code>, Db, UserCache.State))
    ensures r.0.Err? ==> r.1 == db && r.2 == cache && r.0.error in {InvalidArgument, Internal}
    ensures RetrieveUserByUserName(db, cache, req.userName, failing) == Err(ErrNoRows) ==> r.0 == Err(InvalidArgument)
    ensures RetrieveUserByUserName(db, cache, req.userName, failing).Ok? &&
            !checkPassword(req.password, TextValue(RetrieveUserByUserName(db, cache, req.userName, failing).value.password))
            ==> r.0 == Err(InvalidArgument)
    ensures RetrieveUserByUserName(db, cache, req.userName, failing) == Err(DriverError) ==> r.0 == Err(Internal)
    ensures RetrieveUserByUserName(db, cache, req.userName, failing).Ok? &&
            checkPassword(req.password, TextValue(RetrieveUserByUserName(db, cache, req.userName, failing).value.password)) ==>
      var u := RetrieveUserByUserName(db, cache, req.userName, failing).value;
      && (token.None? ==> r.0 == Err(Internal))
      && (token.Some? && XContext.ExtractSessionFromContext(ctx).Err? ==> r.0 == Err(InvalidArgument))
      && (token.Some? && XContext.ExtractSessionFromContext(ctx).Ok? && HistoryInsert in failing ==> r.0 == Err(Internal))
      && (token.Some? && XContext.ExtractSessionFromContext(ctx).Ok? && HistoryInsert !in failing ==>
            r.0 == Ok(LoginReply(u.id, token.value)))
    ensures r.0.Ok? ==>
      && RetrieveUserByUserName(db, cache, req.userName, failing).Ok?
      && var u := RetrieveUserByUserName(db, cache, req.userName, failing).value;
      && checkPassword(req.password, TextValue(u.password))
      && token.Some? && XContext.ExtractSessionFromContext(ctx).Ok?
      && r.0.value == LoginReply(u.id, token.value)
      && r.1.users == db.users
      && r.1.history == db.history + [LoginHistory(u.id, XContext.ExtractSessionFromContext(ctx).value.ip,
                                                   XContext.ExtractSessionFromContext(ctx).value.userAgent, token.value, now, None)]
      && (CacheStore !in failing ==> UserCache.RetrieveByUserName(r.2, TextValue(u.userName)) == Ok(u))
      && (CacheStore in failing ==> r.2 == cache)
  {
    match RetrieveUserByUserName(db, cache, req.userName, failing)
    case Err(ErrNoRows) => (Err(InvalidArgument), db, cache)
    case Err(_) => (Err(Internal), db, cache)
    case Ok(u) =>
      if !checkPassword(req.password, TextValue(u.password)) then (Err(InvalidArgument), db, cache)
      else match token
        case None => (Err(Internal), db, cache)
        case Some(tkn) =>
          match XContext.ExtractSessionFromContext(ctx)
          case Err(_) => (Err(InvalidArgument), db, cache)
          case Ok(session) =>
            var entry := LoginHistory(u.id, session.ip, session.userAgent, tkn, now, None);
            var (o, history) := LoginHistoryRepo.Create(db.history, entry, HistoryInsert in failing);
            if o.Fail? then (Err(Internal), db, cache)
            else
              var cache' := if CacheStore in failing then cache else UserCache.StoreByUserName(cache, TextValue(u.userName), u).0;
              UserCache.StoreThenRetrieve(cache, TextValue(u.userName), u);
              (Ok(LoginReply(u.id, tkn)), db.(history := history), cache')
  }

  /**
   * A failure to cache the user is only logged: the reply and the tables
   * are those of a login whose cache store succeeds.
   */
  lemma CacheFailureIgnored(db: Db, cache: UserCache.State, req: LoginRequest, checkPassword: (string, string) -> bool,
                            token: Option<string>, ctx: XContext.Context, now: Time, failing: set<Step>)
    ensures var bad := Login(db, cache, req, checkPassword, token, ctx, now, failing + {CacheStore});
      var good := Login(db, cache, req, checkPassword, token, ctx, now, failing - {CacheStore});
      bad.0 == good.0 && bad.1 == good.1
  {
  }

  /**
   * After a login the user is served from the cache: the next lookup by
   * the same name finds it even when the database lookup would fail.
   */
  lemma LoginThenCacheHit(db: Db, cache: UserCache.State, req: LoginRequest, checkPassword: (string, string) -> bool,
                          token: Option<string>, ctx: XContext.Context, now: Time, failing: set<Step>)
    requires CacheStore !in failing
    requires Login(db, cache, req, checkPassword, token, ctx, now, failing).0.Ok?
    requires UserCache.RetrieveByUserName(cache, req.userName).Err?
    ensures var (_, db', cache') := Login(db, cache, req, checkPassword, token, ctx, now, failing);
      RetrieveUserByUserName(db', cache', req.userName, {UserLookupByName})
        == RetrieveUserByUserName(db, cache, req.userName, failing)
  {
    var u := RetrieveUserByUserName(db, cache, req.userName, failing).value;
    assert TextEquals(u.userName, req.userName);
  }

  /** The forgot-password attempt limit: a sixth request within the window is refused. */
  const MaxForgotAttempts: int := 5

  /** Length of a generated reset token. */
  const ResetTokenLength: nat := 15

  /**
   * `ForgotPassword`: an unknown email is InvalidArgument; beyond five
   * attempts Internal, with no token issued; otherwise a 15-letter reset
   * token is stored for the email and returned. `corrected` picks the
   * attempt counter: `UserCache.IncrementForgotPassword` as written, or
   * `UserCache.IncrementForgotPasswordCorrected`.
   */
  function ForgotPassword(db: Db, cache: UserCache.State, email: string, draws: seq<nat>, failing: set<Step>,
                          corrected: bool): (r: (Result<string, Code>, UserCache.State))
    requires |draws| == ResetTokenLength && CryptoUtil.DrawsBelow(draws, |CryptoUtil.LetterBytes|)
    ensures r.0.Err? ==> r.0.error in {InvalidArgument, Internal} && r.1.resetTokens == cache.resetTokens && r.1.users == cache.users
    ensures r.1.users == cache.users
    ensures RetrieveUserByEmail(db, cache, email, failing) == Err(ErrNoRows) ==> r == (Err(InvalidArgument), cache)
    ensures RetrieveUserByEmail(db, cache, email, failing) == Err(DriverError) ==> r == (Err(Internal), cache)
    ensures RetrieveUserByEmail(db, cache, email, failing).Ok? ==>
      var key := TextValue(RetrieveUserByEmail(db, cache, email, failing).value.email);
      var count := (if key in cache.attempts then cache.attempts[key] else 0) + 1;
      && (corrected || key in cache.attempts ==> r.1.attempts == cache.attempts[key := count])
      && (!corrected && key !in cache.attempts ==> r.1.attempts == cache.attempts)
      && (count > MaxForgotAttempts ==> r.0 == Err(Internal))
      && (count <= MaxForgotAttempts && ResetTokenStore in failing ==> r.0 == Err(Internal))
      && (count <= MaxForgotAttempts && ResetTokenStore !in failing ==> r.0.Ok?)
    ensures r.0.Ok? ==>
      && |r.0.value| == ResetTokenLength
      && (forall i :: 0 <= i < |r.0.value| ==> r.0.value[i] in CryptoUtil.LetterBytes)
      && UserCache.IsExistResetToken(r.1, email, r.0.value).Pass?
  {
    match RetrieveUserByEmail(db, cache, email, failing)
    case Err(ErrNoRows) => (Err(InvalidArgument), cache)
    case Err(_) => (Err(Internal), cache)
    case Ok(u) =>
      var (cache1, count) :=
        if corrected then UserCache.IncrementForgotPasswordCorrected(cache, TextValue(u.email))
        else UserCache.IncrementForgotPassword(cache, TextValue(u.email));
      if count > MaxForgotAttempts then (Err(Internal), cache1)
      else
        var resetToken := CryptoUtil.GeneratePassword(ResetTokenLength, true, true, true, draws);
        if ResetTokenStore in failing then (Err(Internal), cache1)
        else (Ok(resetToken), UserCache.StoreResetToken(cache1, email, resetToken).0)
  }

  /** The cache after `k` forgot-password requests for the same email. */
  function ForgotCache(db: Db, cache: UserCache.State, email: string, draws: seq<nat>, failing: set<Step>,
                       corrected: bool, k: nat): UserCache.State
    requires |draws| == ResetTokenLength && CryptoUtil.DrawsBelow(draws, |CryptoUtil.LetterBytes|)
  {
    if k == 0 then cache
    else ForgotPassword(db, ForgotCache(db, cache, email, draws, failing, corrected, k - 1), email, draws, failing, corrected).1
  }

  /** What the repeated requests keep: the cached users, and the email's counter (absent as written, `k` corrected). */
  lemma {:induction false} ForgotCacheCounter(db: Db, cache: UserCache.State, email: string, draws: seq<nat>, failing: set<Step>,
                                              corrected: bool, k: nat)
    requires |draws| == ResetTokenLength && CryptoUtil.DrawsBelow(draws, |CryptoUtil.LetterBytes|)
    requires UserLookupByEmail !in failing
    requires UserCache.EmailKey(email) !in cache.users && email !in cache.attempts
    requires exists u :: u in db.users.rows && TextEquals(u.email, email)
    ensures var s := ForgotCache(db, cache, email, draws, failing, corrected, k);
      && s.users == cache.users
      && (!corrected || k == 0 ==> email !in s.attempts)
      && (corrected && k > 0 ==> email in s.attempts && s.attempts[email] == k)
  {
    if k > 0 {
      ForgotCacheCounter(db, cache, email, draws, failing, corrected, k - 1);
      var s := ForgotCache(db, cache, email, draws, failing, corrected, k - 1);
      assert TextValue(RetrieveUserByEmail(db, s, email, failing).value.email) == email;
    }
  }

  /**
   * As written the attempt limit never fires: for an email with no stored
   * counter, every one of any number of requests issues a token.
   */
  lemma LimitUnreachableAsWritten(db: Db, cache: UserCache.State, email: string, draws: seq<nat>, failing: set<Step>, k: nat)
    requires |draws| == ResetTokenLength && CryptoUtil.DrawsBelow(draws, |CryptoUtil.LetterBytes|)
    requires UserLookupByEmail !in failing && ResetTokenStore !in failing
    requires UserCache.EmailKey(email) !in cache.users && email !in cache.attempts
    requires exists u :: u in db.users.rows && TextEquals(u.email, email)
    ensures ForgotPassword(db, ForgotCache(db, cache, email, draws, failing, false, k), email, draws, failing, false).0.Ok?
  {
    ForgotCacheCounter(db, cache, email, draws, failing, false, k);
    var s := ForgotCache(db, cache, email, draws, failing, false, k);
    assert TextValue(RetrieveUserByEmail(db, s, email, failing).value.email) == email;
  }

  /**
   * With the corrected counter the limit fires on time: the first five
   * requests issue a token and every later one is Internal.
   */
  lemma LimitFiresCorrected(db: Db, cache: UserCache.State, email: string, draws: seq<nat>, failing: set<Step>, k: nat)
    requires |draws| == ResetTokenLength && CryptoUtil.DrawsBelow(draws, |CryptoUtil.LetterBytes|)
    requires UserLookupByEmail !in failing && ResetTokenStore !in failing
    requires UserCache.EmailKey(email) !in cache.users && email !in cache.attempts
    requires exists u :: u in db.users.rows && TextEquals(u.email, email)
    ensures var r := ForgotPassword(db, ForgotCache(db, cache, email, draws, failing, true, k), email, draws, failing, true).0;
      && (k < MaxForgotAttempts ==> r.Ok?)
      && (k >= MaxForgotAttempts ==> r == Err(Internal))
  {
    ForgotCacheCounter(db, cache, email, draws, failing, true, k);
    var s := ForgotCache(db, cache, email, draws, failing, true, k);
    assert TextValue(RetrieveUserByEmail(db, s, email, failing).value.email) == email;
  }

  datatype ResetRequest = ResetRequest(email: string, resetToken: string, newPassword: string, repeatPassword: string)

  /**
   * `ResetPassword`: mismatched passwords are InvalidArgument before
   * anything is looked at; an unknown token is FailedPrecondition; a
   * hashing or update failure is Internal. On success the token is
   * dropped, and a failure to drop it is ignored.
   */
  function ResetPassword(db: Db, cache: UserCache.State, req: ResetRequest, hash: string -> Option<string>, failing: set<Step>): (r: (Outcome<Code>, Db, UserCache.State))
    ensures req.newPassword != req.repeatPassword ==> r == (Fail(InvalidArgument), db, cache)
    ensures r.0.Fail? ==> r.1 == db && r.2 == cache && r.0.error in {InvalidArgument, FailedPrecondition, Internal}
    ensures req.newPassword == req.repeatPassword ==>
      (r.0 == Fail(FailedPrecondition) <==> UserCache.IsExistResetToken(cache, req.email, req.resetToken).Fail?)
    ensures req.newPassword == req.repeatPassword && UserCache.IsExistResetToken(cache, req.email, req.resetToken).Pass? ==>
      && (hash(req.newPassword).None? ==> r == (Fail(Internal), db, cache))
      && (hash(req.newPassword).Some? ==>
            var (o, _) := UserRepo.UpdatePassword(db.users, req.email, hash(req.newPassword).value, PasswordUpdate in failing);
            && (o.Fail? ==> r == (Fail(Internal), db, cache))
            && (o.Pass? ==> r.0.Pass?))
    ensures r.0.Pass? ==>
      && hash(req.newPassword).Some?
      && UserRepo.UpdatePassword(db.users, req.email, hash(req.newPassword).value, PasswordUpdate in failing) == (Pass, r.1.users)
      && r.1.history == db.history
      && UserCache.IsExistResetToken(r.2, req.email, req.resetToken).Fail?
      && r.2.users == cache.users && r.2.attempts == cache.attempts
  {
    if req.newPassword != req.repeatPassword then (Fail(InvalidArgument), db, cache)
    else if UserCache.IsExistResetToken(cache, req.email, req.resetToken).Fail? then (Fail(FailedPrecondition), db, cache)
    else match hash(req.newPassword)
      case None => (Fail(Internal), db, cache)
      case Some(pwd) =>
        var (o, users) := UserRepo.UpdatePassword(db.users, req.email, pwd, PasswordUpdate in failing);
        if o.Fail? then (Fail(Internal), db, cache)
        else (Pass, db.(users := users), UserCache.RemoveByResetToken(cache, req.email, req.resetToken).0)
  }

  /**
   * Forgot then reset: the token a forgot-password request issues resets
   * the password of that email once, and is refused the second time.
   */
  lemma ForgotThenReset(db: Db, cache: UserCache.State, email: string, draws: seq<nat>, failing: set<Step>,
                        pwd: string, hash: string -> Option<string>)
    requires |draws| == ResetTokenLength && CryptoUtil.DrawsBelow(draws, |CryptoUtil.LetterBytes|)
    requires ForgotPassword(db, cache, email, draws, failing, true).0.Ok?
    requires hash(pwd).Some? && PasswordUpdate !in failing
    requires exists u :: u in db.users.rows && TextEquals(u.email, email)
    ensures var (tok, cache1) := ForgotPassword(db, cache, email, draws, failing, true);
      var req := ResetRequest(email, tok.value, pwd, pwd);
      var (o, db2, cache2) := ResetPassword(db, cache1, req, hash, failing);
      && o.Pass?
      && ResetPassword(db2, cache2, req, hash, failing).0 == Fail(FailedPrecondition)
  {
  }
}

=== FILE: coupon_client.dfy ===
/**
 * The product service's view of the coupon service: the eligibility
 * question it asks during a purchase, answered by the coupon service's
 * own model. This joins the two services for end-to-end statements.
 */
module CouponClient {
  import opened Wrappers
  import opened Status
  import opened PgTypes
  import opened CouponEntity
  import opened ProductEntity
  import XContext
  import CouponService
  import ProductService
  import ProductRepo
  import CouponRepo
  import Tx

  /** The fields of the reply the purchase reads; an unusable reply carries no kind or value. */
  function AnswerOf(reply: CouponService.CouponReply): (a: ProductService.CouponAnswer)
    ensures a.canUse == reply.canUse
    ensures reply.details.Some? ==> a.discountType == reply.details.value.discountType && a.value == reply.details.value.value
  {
    match reply.details
    case Some(d) => ProductService.CouponAnswer(reply.canUse, d.discountType, d.value)
    case None => ProductService.CouponAnswer(reply.canUse, OtherDiscount(""), 0.0)
  }

  /** The eligibility call of a purchase: CheckUse on, with the buyer's id. */
  function Check(cdb: CouponService.Db, code: string, userId: int, now: Time, failing: set<CouponService.Step>): (r: Result<ProductService.CouponAnswer, Code>)
    ensures r.Err? ==> r.error in {Internal, Panic}
    ensures r.Ok? && r.value.canUse ==> exists c :: c in cdb.coupons.rows && c.code == code && c.from <= now <= c.to
  {
    match CouponService.RetrieveCouponByCode(cdb, CouponService.RetrieveRequest(code, true, Some(userId)), now, failing)
    case Err(e) => Err(e)
    case Ok(reply) => Ok(AnswerOf(reply))
  }

  /**
   * A purchase with a code the coupon service does not know fails with
   * Internal, not NotFound: the coupon service reports the unknown code as
   * Internal and the purchase maps that to Internal. Nothing is written.
   */
  lemma UnknownCouponPurchaseIsInternal(db: ProductService.Db, user: XContext.UserInfo, req: ProductService.PurchaseRequest,
                                       cdb: CouponService.Db, now: Time, apply: Outcome<Code>, env: Tx.Env,
                                       failing: set<ProductService.Step>, cfailing: set<CouponService.Step>)
    requires req.coupon.Some?
    requires forall c :: c in cdb.coupons.rows ==> c.code != req.coupon.value
    requires ProductRepo.RetrieveById(db.products, req.productId, ProductService.ProductLookup in failing).Ok?
    ensures var remote := ProductService.Remote(Check(cdb, req.coupon.value, user.userId, now, cfailing), apply);
      var r := ProductService.PurchaseProduct(db, Some(user), req, remote, env, failing);
      r.outcome == Fail(Internal) && r.db == db
  {
    CouponService.UnknownCodeIsInternal(cdb, CouponService.RetrieveRequest(req.coupon.value, true, Some(user.userId)), now, cfailing);
  }

  /** A purchase with a coupon outside its window is refused with FailedPrecondition and writes nothing. */
  lemma ExpiredCouponPurchaseRefused(db: ProductService.Db, user: XContext.UserInfo, req: ProductService.PurchaseRequest,
                                    cdb: CouponService.Db, now: Time, apply: Outcome<Code>, env: Tx.Env,
                                    failing: set<ProductService.Step>, c: Coupon)
    requires req.coupon.Some?
    requires CouponRepo.RetrieveByCode(cdb.coupons, req.coupon.value, false) == Ok(c)
    requires now < c.from || c.to < now
    requires ProductRepo.RetrieveById(db.products, req.productId, ProductService.ProductLookup in failing).Ok?
    ensures var remote := ProductService.Remote(Check(cdb, req.coupon.value, user.userId, now, {}), apply);
      var r := ProductService.PurchaseProduct(db, Some(user), req, remote, env, failing);
      r.outcome == Fail(FailedPrecondition) && r.db == db && |r.calls| == 1
  {
    CouponService.OutsideWindowUnusable(cdb, CouponService.RetrieveRequest(req.coupon.value, true, Some(user.userId)), now, {}, c);
  }

  /**
   * End to end: a purchase with a usable LIMITED coupon, redeemed through
   * the coupon service's `ApplyCoupon`, appends one purchase record priced
   * by the coupon's discount type and value, and one used-coupon record,
   * and leaves the coupon's counters as they were.
   */
  lemma LimitedCouponPurchase(db: ProductService.Db, user: XContext.UserInfo, req: ProductService.PurchaseRequest,
                              cdb: CouponService.Db, now: Time, env: Tx.Env, c: Coupon, p: Product)
    requires req.coupon.Some? && env.beginOk && env.commitOk
    requires CouponRepo.RetrieveByCode(cdb.coupons, req.coupon.value, false) == Ok(c)
    requires c.ctype == Limited && c.from <= now <= c.to && c.used < c.total
    requires ProductRepo.RetrieveById(db.products, req.productId, false) == Ok(p)
    ensures var applied := CouponService.ApplyCoupon(cdb, Some(user), req.coupon.value, now, {});
      var remote := ProductService.Remote(Check(cdb, req.coupon.value, user.userId, now, {}), applied.0);
      var r := ProductService.PurchaseProduct(db, Some(user), req, remote, env, {});
      var d := ProductService.DiscountTotal(p.price, ProductService.CouponAnswer(true, c.discountType, c.value));
      && r.outcome.Pass?
      && r.db.purchases == db.purchases + [PurchasedProduct(p.id, user.userId, p.price, d, ProductService.Max(0.0, d), req.coupon)]
      && applied.1.used == cdb.used + [UsedCoupon(c.id, user.userId, now)]
      && applied.1.coupons == cdb.coupons
  {
    assert c in cdb.coupons.rows;
  }
}

=== FILE: coupon_entity.dfy ===
/**
 * Rows of the coupon component's tables, with the columns the coupon
 * service reads and writes. A NULL integer or text column reads as 0 or "",
 * so such columns are plain values here, defaulting to zero.
 */
module CouponEntity {
  import opened PgTypes

  /** The scope along which a coupon's usage is capped. */
  datatype CouponType = Limited | PerUser | PerProduct | OtherType(name: string)

  /** How a coupon's value turns into a price. */
  datatype DiscountType = Percent | FixedValue | OtherDiscount(name: string)

  datatype Coupon = Coupon(
    id: int,
    code: string,
    from: Time,
    to: Time,
    imageUrl: string,
    description: string,
    createdBy: int,
    value: real,
    total: int,
    used: int,
    createdAt: Time,
    ctype: CouponType,
    discountType: DiscountType)

  /** Per-(coupon, user) usage counters. */
  datatype UserCoupon = UserCoupon(couponId: int, userId: int, used: int, total: int)

  /** Per-(coupon, product) usage counters; `id` is the row's own serial id. */
  datatype ProductCoupon = ProductCoupon(id: int, couponId: int, productId: int, used: int, total: int)

  /** One redemption of a coupon by a user: the append-only usage log. */
  datatype UsedCoupon = UsedCoupon(couponId: int, userId: int, createdAt: Time)
}

=== FILE: coupon_repo.dfy ===
/** The coupons table. */
module CouponRepo {
  import opened Wrappers
  import opened Status
  import opened CouponEntity
  import Rows

  /** The rows in insertion order, and the next value of the id sequence. */
  datatype Table = Table(rows: seq<Coupon>, nextId: int)

  /** Ids are unique and below the next id the sequence will hand out. */
  ghost predicate Valid(t: Table) {
    && (forall i :: 0 <= i < |t.rows| ==> t.rows[i].id < t.nextId)
    && (forall i, j :: 0 <= i < j < |t.rows| ==> t.rows[i].id != t.rows[j].id)
  }

  /**
   * `Create`: insert every column but the id, which the sequence assigns,
   * and return that id. `fails` stands for any driver error.
   */
  function Create(t: Table, data: Coupon, fails: bool): (r: (Result<int, DbError>, Table))
    ensures fails ==> r == (Err(DriverError), t)
    ensures !fails ==> r.0 == Ok(t.nextId) && r.1.rows == t.rows + [data.(id := t.nextId)]
    ensures !fails ==> r.1.nextId > t.nextId
    ensures Valid(t) ==> Valid(r.1)
  {
    if fails then (Err(DriverError), t)
    else (Ok(t.nextId), Table(t.rows + [data.(id := t.nextId)], t.nextId + 1))
  }

  /** `DeleteByID`: remove the row with that id; ErrNoRows when no row was affected. */
  function DeleteById(t: Table, id: int, fails: bool): (r: (Outcome<DbError>, Table))
    ensures fails ==> r == (Fail(DriverError), t)
    ensures !fails ==> (r.0 == Fail(ErrNoRows) <==> forall c :: c in t.rows ==> c.id != id)
    ensures r.0.Fail? ==> r.1 == t
    ensures forall c :: c in r.1.rows <==> c in t.rows && (r.0.Pass? ==> c.id != id)
    ensures r.1.nextId == t.nextId
  {
    if fails then (Fail(DriverError), t)
    else if Rows.Count(t.rows, (c: Coupon) => c.id == id) == 0 then (Fail(ErrNoRows), t)
    else (Pass, t.(rows := Rows.Filter(t.rows, (c: Coupon) => c.id != id)))
  }

  /** `RetrieveByCode`: the row whose code equals `code`; ErrNoRows when none does. */
  function RetrieveByCode(t: Table, code: string, fails: bool): (r: Result<Coupon, DbError>)
    ensures fails ==> r == Err(DriverError)
    ensures !fails ==> (r == Err(ErrNoRows) <==> forall c :: c in t.rows ==> c.code != code)
    ensures r.Ok? ==> r.value in t.rows && r.value.code == code
  {
    if fails then Err(DriverError)
    else match Rows.First(t.rows, (c: Coupon) => c.code == code)
      case Some(c) => Ok(c)
      case None => Err(ErrNoRows)
  }

  /** A coupon created with a code no other row has is the one a lookup by that code finds. */
  lemma {:induction false} RetrieveAfterCreate(t: Table, data: Coupon)
    requires forall c :: c in t.rows ==> c.code != data.code
    ensures RetrieveByCode(Create(t, data, false).1, data.code, false) == Ok(data.(id := t.nextId))
  {
    var rows := t.rows + [data.(id := t.nextId)];
    FirstIsLast(t.rows, data.(id := t.nextId), data.code);
  }

  lemma {:induction false} FirstIsLast(rows: seq<Coupon>, x: Coupon, code: string)
    requires forall c :: c in rows ==> c.code != code
    requires x.code == code
    ensures Rows.First(rows + [x], (c: Coupon) => c.code == code) == Some(x)
  {
    if rows == [] {
      assert rows + [x] == [x];
    } else {
      assert (rows + [x])[1..] == rows[1..] + [x];
      assert rows[0] in rows;
      FirstIsLast(rows[1..], x, code);
    }
  }
}

=== FILE: coupon_service.dfy ===
/**
 * The coupon service: admin-only creation and deletion, the eligibility
 * decision behind `RetrieveCouponByCode`, redemption and the used-coupon
 * listing. The database is the four tables below; a driver failure of a
 * given call is injected by naming its step in `failing`.
 */
module CouponService {
  import opened Wrappers
  import opened Status
  import opened PgTypes
  import opened CouponEntity
  import XContext
  import Identity
  import Tx
  import CryptoUtil
  import CouponRepo
  import UserCouponRepo
  import ProductCouponRepo
  import UsedCouponRepo

  datatype Db = Db(
    coupons: CouponRepo.Table,
    userCoupons: UserCouponRepo.Table,
    productCoupons: ProductCouponRepo.Table,
    used: UsedCouponRepo.Table)

  /** The database calls of this service, each of which may fail. */
  datatype Step =
    | CouponInsert | UserGrantInsert | ProductGrantInsert | CouponDelete
    | CouponLookup | UserGrantLookup | ProductGrantLookup | UsedInsert | UsedList

  /** The request's `apply_id` oneof. */
  datatype ApplyTarget = NoTarget | ToUser(userId: int) | ToProduct(productId: int)

  datatype CreateCouponRequest = CreateCouponRequest(
    from: Time,
    to: Time,
    description: string,
    imageUrl: string,
    value: real,
    total: int,
    ctype: CouponType,
    discountType: DiscountType,
    applyId: ApplyTarget)

  /** A clock reading: the instant and its calendar date. */
  datatype Clock = Clock(now: Time, year: nat, month: nat, day: nat)

  /** What `time.Now` and `rand.Intn` can hand to the code generator. */
  predicate CodeInputs(clock: Clock, draws: seq<nat>) {
    && 1 <= clock.month <= 12 && 1 <= clock.day <= 31
    && |draws| == CryptoUtil.RandLength && CryptoUtil.DrawsBelow(draws, |CryptoUtil.Charset|)
  }

  /** The code a coupon created at `clock` with these random draws gets. */
  function NewCode(clock: Clock, draws: seq<nat>): (code: string)
    requires CodeInputs(clock, draws)
    ensures |code| == 17 && code[..6] == "COUPON"
  {
    var code := CryptoUtil.GenerateCode("COUPON", clock.year, clock.month, clock.day, draws);
    assert CryptoUtil.AsciiUpper("COUPON") == "COUPON";
    code
  }

  /** The row `CreateCoupon` inserts (its id is assigned by the table). */
  function NewCoupon(req: CreateCouponRequest, code: string, createdBy: int, now: Time): Coupon {
    Coupon(0, code, req.from, req.to, req.imageUrl, req.description, createdBy,
           req.value, req.total, 0, now, req.ctype, req.discountType)
  }

  /** Whether one of the inserts the request calls for fails. */
  predicate InsertFails(req: CreateCouponRequest, failing: set<Step>) {
    || CouponInsert in failing
    || (req.applyId.ToUser? && UserGrantInsert in failing)
    || (req.applyId.ToProduct? && ProductGrantInsert in failing)
  }

  /** The body run inside the transaction: the coupon, then at most one grant. */
  function CreateBody(req: CreateCouponRequest, c: Coupon, failing: set<Step>, d: Db): (r: (Db, Option<DbError>))
    ensures r.1.None? <==> !InsertFails(req, failing)
  {
    var (res, coupons) := CouponRepo.Create(d.coupons, c, CouponInsert in failing);
    if res.Err? then (d, Some(res.error))
    else
      var d1 := d.(coupons := coupons);
      match req.applyId
      case NoTarget => (d1, None)
      case ToUser(u) =>
        var (o, grants) := UserCouponRepo.Create(d1.userCoupons, UserCoupon(res.value, u, 0, 0), UserGrantInsert in failing);
        if o.Fail? then (d1, Some(o.error)) else (d1.(userCoupons := grants), None)
      case ToProduct(p) =>
        var (o, grants) := ProductCouponRepo.Create(d1.productCoupons, res.value, p, ProductGrantInsert in failing);
        if o.Fail? then (d1, Some(o.error)) else (d1.(productCoupons := grants), None)
  }

  /**
   * `CreateCoupon`: admins only. Inside one transaction insert the coupon,
   * then a user grant when the request targets a user, a product grant when
   * it targets a product and no grant otherwise. Any failure of the
   * transaction is Internal and leaves every table as it was.
   */
  function CreateCoupon(db: Db, caller: Option<XContext.UserInfo>, req: CreateCouponRequest,
                        clock: Clock, draws: seq<nat>, env: Tx.Env, failing: set<Step>): (r: (Result<int, Code>, Db))
    requires CodeInputs(clock, draws)
    ensures Identity.ValidAdmin(caller).Err? ==> r == (Err(PermissionDenied), db)
    ensures r.0.Err? ==> r.1 == db && r.0.error in {PermissionDenied, Internal}
    ensures r.0 == Err(Internal) <==>
      Identity.ValidAdmin(caller).Ok? && (!env.beginOk || InsertFails(req, failing) || !env.commitOk)
    ensures r.0.Ok? ==>
      && caller.Some?
      && r.0.value == db.coupons.nextId
      && r.1.coupons.rows == db.coupons.rows + [NewCoupon(req, NewCode(clock, draws), caller.value.userId, clock.now).(id := r.0.value)]
      && r.1.used == db.used
    ensures r.0.Ok? && req.applyId.ToUser? ==>
      && r.1.userCoupons == db.userCoupons + [UserCoupon(r.0.value, req.applyId.userId, 0, 0)]
      && r.1.productCoupons == db.productCoupons
    ensures r.0.Ok? && req.applyId.ToProduct? ==>
      && r.1.productCoupons.rows == db.productCoupons.rows + [ProductCoupon(db.productCoupons.nextId, r.0.value, req.applyId.productId, 0, 0)]
      && r.1.userCoupons == db.userCoupons
    ensures r.0.Ok? && req.applyId.NoTarget? ==>
      r.1.userCoupons == db.userCoupons && r.1.productCoupons == db.productCoupons
  {
    match Identity.ValidAdmin(caller)
    case Err(e) => (Err(e), db)
    case Ok(user) =>
      var c := NewCoupon(req, NewCode(clock, draws), user.userId, clock.now);
      var tx := Tx.Transaction(db, env, (d: Db) => CreateBody(req, c, failing, d));
      if tx.err.Some? then (Err(Internal), db)
      else (Ok(db.coupons.nextId), tx.state)
  }

  /**
   * `DeleteCouponByID`: admins only; every repository error, a missing id
   * included, is Internal. Only the coupons table changes.
   */
  function DeleteCouponById(db: Db, caller: Option<XContext.UserInfo>, id: int, failing: set<Step>): (r: (Outcome<Code>, Db))
    ensures Identity.ValidAdmin(caller).Err? ==> r == (Fail(PermissionDenied), db)
    ensures r.0.Fail? ==> r.1 == db && r.0.error in {PermissionDenied, Internal}
    ensures Identity.ValidAdmin(caller).Ok? ==>
      (r.0 == Fail(Internal) <==> CouponDelete in failing || forall c :: c in db.coupons.rows ==> c.id != id)
    ensures r.0.Pass? ==>
      && (forall c :: c in r.1.coupons.rows <==> c in db.coupons.rows && c.id != id)
      && r.1 == db.(coupons := r.1.coupons)
  {
    match Identity.ValidAdmin(caller)
    case Err(e) => (Fail(e), db)
    case Ok(_) =>
      var (o, coupons) := CouponRepo.DeleteById(db.coupons, id, CouponDelete in failing);
      if o.Fail? then (Fail(Internal), db) else (Pass, db.(coupons := coupons))
  }

  datatype RetrieveRequest = RetrieveRequest(code: string, checkUse: bool, userId: Option<int>)

  /** The stored fields a successful answer echoes. */
  datatype CouponDetails = CouponDetails(
    ctype: CouponType,
    total: int,
    from: Time,
    to: Time,
    imageUrl: string,
    description: string,
    discountType: DiscountType,
    value: real,
    used: int)

  /** An answer: usable or not; the stored fields come only with a usable one. */
  datatype CouponReply = CouponReply(canUse: bool, details: Option<CouponDetails>)

  function Details(c: Coupon): CouponDetails {
    CouponDetails(c.ctype, c.total, c.from, c.to, c.imageUrl, c.description, c.discountType, c.value, c.used)
  }

  const Unusable := CouponReply(false, None)

  function Usable(c: Coupon): CouponReply {
    CouponReply(true, Some(Details(c)))
  }

  /** The closed validity window: both ends still count. */
  predicate InWindow(c: Coupon, now: Time) {
    c.from <= now <= c.to
  }

  /**
   * `RetrieveCouponByCode`: look the coupon up (any failure, an unknown code
   * included, is Internal); without CheckUse answer with its fields; with
   * CheckUse, refuse outside the window, then compare `used >= total` on the
   * counter row of the coupon's scope. A USER check without a user id
   * dereferences nil and panics.
   */
  function RetrieveCouponByCode(db: Db, req: RetrieveRequest, now: Time, failing: set<Step>): (r: Result<CouponReply, Code>)
    ensures r.Err? ==> r.error in {Internal, Panic}
    ensures r.Ok? ==> (r.value.canUse <==> r.value.details.Some?)
    ensures CouponRepo.RetrieveByCode(db.coupons, req.code, CouponLookup in failing).Err? ==> r == Err(Internal)
    ensures r.Ok? ==> exists c :: c in db.coupons.rows && c.code == req.code && (r.value.canUse ==> r.value == Usable(c))
    ensures !req.checkUse ==> r.Ok? || r == Err(Internal)
    ensures r.Ok? && r.value.canUse && req.checkUse ==> exists c :: c in db.coupons.rows && c.code == req.code && InWindow(c, now)
    ensures req.checkUse && CouponRepo.RetrieveByCode(db.coupons, req.code, CouponLookup in failing).Ok? ==>
      var c := CouponRepo.RetrieveByCode(db.coupons, req.code, CouponLookup in failing).value;
      && (!InWindow(c, now) ==> r == Ok(Unusable))
      && (InWindow(c, now) && c.ctype == Limited ==>
            (c.used < c.total ==> r == Ok(Usable(c))) && (c.used >= c.total ==> r == Ok(Unusable)))
      && (InWindow(c, now) && c.ctype == PerUser && req.userId.None? ==> r == Err(Panic))
      && (InWindow(c, now) && c.ctype == PerUser && req.userId.Some? ==>
            var g := UserCouponRepo.RetrieveByCouponIdUserId(db.userCoupons, c.id, req.userId.value, UserGrantLookup in failing);
            && (g.Err? ==> r == Err(Internal))
            && (g.Ok? && g.value.used < g.value.total ==> r == Ok(Usable(c)))
            && (g.Ok? && g.value.used >= g.value.total ==> r == Ok(Unusable)))
      && (InWindow(c, now) && c.ctype == PerProduct ==>
            var g := ProductCouponRepo.RetrieveByCouponId(db.productCoupons, c.id, ProductGrantLookup in failing);
            && (g.Err? ==> r == Err(Internal))
            && (g.Ok? && g.value.used < g.value.total ==> r == Ok(Usable(c)))
            && (g.Ok? && g.value.used >= g.value.total ==> r == Ok(Unusable)))
      && (InWindow(c, now) && c.ctype.OtherType? ==> r == Ok(Usable(c)))
  {
    match CouponRepo.RetrieveByCode(db.coupons, req.code, CouponLookup in failing)
    case Err(_) => Err(Internal)
    case Ok(c) =>
      if !req.checkUse then Ok(Usable(c))
      else if c.from > now || c.to < now then Ok(Unusable)
      else match c.ctype
        case Limited =>
          if c.used >= c.total then Ok(Unusable) else Ok(Usable(c))
        case PerUser =>
          if req.userId.None? then Err(Panic)
          else (match UserCouponRepo.RetrieveByCouponIdUserId(db.userCoupons, c.id, req.userId.value, UserGrantLookup in failing)
            case Err(_) => Err(Internal)
            case Ok(g) => if g.used >= g.total then Ok(Unusable) else Ok(Usable(c)))
        case PerProduct =>
          (match ProductCouponRepo.RetrieveByCouponId(db.productCoupons, c.id, ProductGrantLookup in failing)
          case Err(_) => Err(Internal)
          case Ok(g) => if g.used >= g.total then Ok(Unusable) else Ok(Usable(c)))
        case OtherType(_) => Ok(Usable(c))
  }

  /** `ApplyCoupon`: record one redemption of the coupon by the caller, and nothing else. */
  function ApplyCoupon(db: Db, caller: Option<XContext.UserInfo>, code: string, now: Time, failing: set<Step>): (r: (Outcome<Code>, Db))
    ensures caller.None? ==> r == (Fail(PermissionDenied), db)
    ensures r.0 == Fail(PermissionDenied) <==> caller.None?
    ensures r.0.Fail? ==> r.1 == db && r.0.error in {PermissionDenied, NotFound, Internal}
    ensures caller.Some? && CouponLookup in failing ==> r == (Fail(Internal), db)
    ensures caller.Some? && CouponLookup !in failing ==>
      (r.0 == Fail(NotFound) <==> forall c :: c in db.coupons.rows ==> c.code != code)
    ensures caller.Some? && (exists c :: c in db.coupons.rows && c.code == code) ==>
      (r.0.Pass? <==> CouponLookup !in failing && UsedInsert !in failing)
    ensures r.0.Pass? ==>
      && caller.Some?
      && (exists c :: c in db.coupons.rows && c.code == code
            && r.1.used == db.used + [UsedCoupon(c.id, caller.value.userId, now)])
      && r.1 == db.(used := r.1.used)
  {
    match caller
    case None => (Fail(PermissionDenied), db)
    case Some(user) =>
      match CouponRepo.RetrieveByCode(db.coupons, code, CouponLookup in failing)
      case Err(ErrNoRows) => (Fail(NotFound), db)
      case Err(_) => (Fail(Internal), db)
      case Ok(c) =>
        var (o, used) := UsedCouponRepo.Create(db.used, UsedCoupon(c.id, user.userId, now), UsedInsert in failing);
        if o.Fail? then (Fail(Internal), db) else (Pass, db.(used := used))
  }

  /** One entry of the used-coupon listing. */
  datatype UsedItem = UsedItem(code: string, description: string, imageUrl: string, applyAt: Time)

  function ItemOf(p: (UsedCoupon, Coupon)): UsedItem {
    UsedItem(p.1.code, p.1.description, p.1.imageUrl, p.0.createdAt)
  }

  function Items(ps: seq<(UsedCoupon, Coupon)>): (r: seq<UsedItem>)
    ensures |r| == |ps|
    ensures forall i :: 0 <= i < |ps| ==> r[i] == ItemOf(ps[i])
  {
    if ps == [] then [] else [ItemOf(ps[0])] + Items(ps[1..])
  }

  /** A record of `userId` redeeming `c`, as the listing shows it. */
  predicate Redeemed(db: Db, userId: int, it: UsedItem) {
    exists u, c :: u in db.used && c in db.coupons.rows && u.userId == userId && c.id == u.couponId
      && it == ItemOf((u, c))
  }

  /**
   * `ListUsedCoupon` over the repository's listing as written: a user with
   * any redemption of an existing coupon gets Internal, and everyone else
   * an empty list.
   */
  function ListUsedCouponAsWritten(db: Db, ctx: XContext.Context, failing: set<Step>): (r: Result<seq<UsedItem>, Code>)
    ensures r.Err? ==> r.error == Internal
    ensures r.Ok? ==> r.value == []
    ensures r.Err? <==>
      || XContext.ExtractUserInfoFromContext(ctx).Err? || UsedList in failing
      || exists it :: Redeemed(db, XContext.ExtractUserInfoFromContext(ctx).value.userId, it)
  {
    match XContext.ExtractUserInfoFromContext(ctx)
    case Err(_) => Err(Internal)
    case Ok(user) =>
      match UsedCouponRepo.ListUsedCouponByUserIdAsWritten(db.used, db.coupons.rows, user.userId, UsedList in failing)
      case Err(_) =>
        assert UsedList !in failing ==> exists it :: Redeemed(db, user.userId, it) by {
          if UsedList !in failing {
            var u, c :| u in db.used && u.userId == user.userId && c in db.coupons.rows && c.id == u.couponId;
            assert Redeemed(db, user.userId, ItemOf((u, c)));
          }
        }
        Err(Internal)
      case Ok(ps) => Ok(Items(ps))
  }

  /**
   * `ListUsedCoupon`: the coupons the user in the context has redeemed. No
   * user in the context, or a failed query, is Internal.
   */
  function ListUsedCoupon(db: Db, ctx: XContext.Context, failing: set<Step>): (r: Result<seq<UsedItem>, Code>)
    ensures XContext.ExtractUserInfoFromContext(ctx).Err? || UsedList in failing <==> r == Err(Internal)
    ensures r.Err? ==> r.error == Internal
    ensures r.Ok? ==> forall it :: it in r.value <==> Redeemed(db, XContext.ExtractUserInfoFromContext(ctx).value.userId, it)
  {
    match XContext.ExtractUserInfoFromContext(ctx)
    case Err(_) => Err(Internal)
    case Ok(user) =>
      match UsedCouponRepo.ListUsedCouponByUserId(db.used, db.coupons.rows, user.userId, UsedList in failing)
      case Err(_) => Err(Internal)
      case Ok(ps) =>
        var items := Items(ps);
        assert forall it :: it in items ==> Redeemed(db, user.userId, it) by {
          forall it | it in items ensures Redeemed(db, user.userId, it) {
            var i :| 0 <= i < |items| && items[i] == it;
            assert ps[i] in ps;
          }
        }
        assert forall it :: Redeemed(db, user.userId, it) ==> it in items by {
          forall it | Redeemed(db, user.userId, it) ensures it in items {
            var u, c :| u in db.used && c in db.coupons.rows && u.userId == user.userId && c.id == u.couponId
              && it == ItemOf((u, c));
            assert (u, c) in ps;
            var i :| 0 <= i < |ps| && ps[i] == (u, c);
            assert items[i] == it;
          }
        }
        Ok(items)
  }

  /**
   * Eligibility stated on its own: inside the closed window, and with a use
   * left on the counter row that governs the coupon's scope — the coupon
   * itself for LIMITED, the caller's grant for USER, the product grant for
   * PRODUCT; a coupon of any other type needs no counter. `grant` is the
   * (used, total) pair of the grant row found, if any.
   */
  predicate Eligible(c: Coupon, now: Time, grant: Option<(int, int)>) {
    && c.from <= now && now <= c.to
    && match c.ctype
       case Limited => c.used < c.total
       case PerUser => grant.Some? && grant.value.0 < grant.value.1
       case PerProduct => grant.Some? && grant.value.0 < grant.value.1
       case OtherType(_) => true
  }

  /** The grant row `RetrieveCouponByCode` consults for a coupon, as a (used, total) pair. */
  function ScopeGrant(db: Db, c: Coupon, userId: Option<int>): Option<(int, int)> {
    match c.ctype
    case PerUser =>
      if userId.None? then None
      else (match UserCouponRepo.RetrieveByCouponIdUserId(db.userCoupons, c.id, userId.value, false)
            case Ok(g) => Some((g.used, g.total))
            case Err(_) => None)
    case PerProduct =>
      (match ProductCouponRepo.RetrieveByCouponId(db.productCoupons, c.id, false)
       case Ok(g) => Some((g.used, g.total))
       case Err(_) => None)
    case _ => None
  }

  /**
   * The CheckUse decision is exactly eligibility: with no failing lookup, a
   * found coupon is answered usable iff it is `Eligible`, and unusable
   * otherwise; the only non-answer is the panic of a USER check without a
   * user id and the Internal of a USER or PRODUCT coupon with no grant row.
   */
  lemma CheckUseIsEligibility(db: Db, req: RetrieveRequest, now: Time, c: Coupon)
    requires req.checkUse
    requires CouponRepo.RetrieveByCode(db.coupons, req.code, false) == Ok(c)
    ensures var r := RetrieveCouponByCode(db, req, now, {});
      && (r.Ok? ==> (r.value.canUse <==> Eligible(c, now, ScopeGrant(db, c, req.userId))))
      && (r.Ok? && r.value.canUse ==> r.value == Usable(c))
      && (r.Err? ==> InWindow(c, now) && (c.ctype.PerUser? || c.ctype.PerProduct?))
      && (Eligible(c, now, ScopeGrant(db, c, req.userId)) ==> r == Ok(Usable(c)))
  {
  }

  /** A coupon that exists is never reported missing, and a missing one is Internal, not NotFound. */
  lemma UnknownCodeIsInternal(db: Db, req: RetrieveRequest, now: Time, failing: set<Step>)
    requires forall c :: c in db.coupons.rows ==> c.code != req.code
    ensures RetrieveCouponByCode(db, req, now, failing) == Err(Internal)
  {
  }

  /**
   * Without CheckUse the answer depends on neither the clock nor the grant
   * tables, and a found coupon is always usable.
   */
  lemma UncheckedIgnoresWindowAndGrants(db: Db, grants: UserCouponRepo.Table, pgrants: ProductCouponRepo.Table,
                                        req: RetrieveRequest, now1: Time, now2: Time, failing: set<Step>)
    requires !req.checkUse
    ensures var r1 := RetrieveCouponByCode(db, req, now1, failing);
      var r2 := RetrieveCouponByCode(db.(userCoupons := grants, productCoupons := pgrants), req, now2, failing);
      r1 == r2 && (r1.Ok? ==> r1.value.canUse)
  {
  }

  /** With CheckUse, a coupon outside its window is unusable, and nothing else is said. */
  lemma OutsideWindowUnusable(db: Db, req: RetrieveRequest, now: Time, failing: set<Step>, c: Coupon)
    requires req.checkUse
    requires CouponRepo.RetrieveByCode(db.coupons, req.code, CouponLookup in failing) == Ok(c)
    requires now < c.from || c.to < now
    ensures RetrieveCouponByCode(db, req, now, failing) == Ok(Unusable)
  {
  }

  /**
   * Both ends of the window count: a LIMITED coupon with uses left is
   * usable at exactly `from` and at exactly `to`, and a LIMITED coupon whose
   * total is NULL (read as 0) is never usable.
   */
  lemma LimitedAtWindowEdges(db: Db, req: RetrieveRequest, failing: set<Step>, c: Coupon)
    requires req.checkUse && c.ctype == Limited
    requires CouponRepo.RetrieveByCode(db.coupons, req.code, CouponLookup in failing) == Ok(c)
    requires c.from <= c.to
    ensures c.used < c.total ==>
      RetrieveCouponByCode(db, req, c.from, failing) == Ok(Usable(c))
      && RetrieveCouponByCode(db, req, c.to, failing) == Ok(Usable(c))
    ensures c.total == 0 && c.used >= 0 ==>
      forall now :: RetrieveCouponByCode(db, req, now, failing) == Ok(Unusable)
  {
  }

  /**
   * Redemption leaves eligibility alone: after a successful `ApplyCoupon`
   * every `RetrieveCouponByCode` answers exactly as before.
   */
  lemma ApplyKeepsEligibility(db: Db, caller: Option<XContext.UserInfo>, code: string, at: Time, failing: set<Step>,
                              req: RetrieveRequest, now: Time, failing2: set<Step>)
    requires ApplyCoupon(db, caller, code, at, failing).0.Pass?
    ensures RetrieveCouponByCode(ApplyCoupon(db, caller, code, at, failing).1, req, now, failing2)
         == RetrieveCouponByCode(db, req, now, failing2)
  {
    var db' := ApplyCoupon(db, caller, code, at, failing).1;
    assert db' == db.(used := db'.used);
  }

  /**
   * Two successful redemptions of the same code by the same caller log two
   * records and leave every counter table untouched.
   */
  lemma ApplyTwice(db: Db, user: XContext.UserInfo, code: string, at: Time, failing: set<Step>)
    requires ApplyCoupon(db, Some(user), code, at, failing).0.Pass?
    ensures var db1 := ApplyCoupon(db, Some(user), code, at, failing).1;
      var db2 := ApplyCoupon(db1, Some(user), code, at, failing).1;
      && ApplyCoupon(db1, Some(user), code, at, failing).0.Pass?
      && db2.coupons == db.coupons && db2.userCoupons == db.userCoupons && db2.productCoupons == db.productCoupons
      && (exists c :: c in db.coupons.rows && c.code == code
            && UsedCouponRepo.Uses(db2.used, c.id, user.userId) == UsedCouponRepo.Uses(db.used, c.id, user.userId) + 2)
  {
    var db1 := ApplyCoupon(db, Some(user), code, at, failing).1;
    var c := CouponRepo.RetrieveByCode(db.coupons, code, CouponLookup in failing).value;
    var rec := UsedCoupon(c.id, user.userId, at);
    assert db1.used == db.used + [rec];
    assert db1.coupons == db.coupons;
    assert ApplyCoupon(db1, Some(user), code, at, failing).1.used == db1.used + [rec];
    UsedCouponRepo.CreateTwice(db.used, rec);
  }

  /**
   * Create then look up: a coupon created with a code no other coupon has
   * is found by that code, and without CheckUse the answer echoes what the
   * request asked for, with no use recorded yet.
   */
  lemma CreateThenRetrieve(db: Db, caller: Option<XContext.UserInfo>, req: CreateCouponRequest,
                           clock: Clock, draws: seq<nat>, env: Tx.Env, failing: set<Step>, now: Time, userId: Option<int>)
    requires CodeInputs(clock, draws)
    requires forall c :: c in db.coupons.rows ==> c.code != NewCode(clock, draws)
    requires CreateCoupon(db, caller, req, clock, draws, env, failing).0.Ok?
    ensures var db' := CreateCoupon(db, caller, req, clock, draws, env, failing).1;
      RetrieveCouponByCode(db', RetrieveRequest(NewCode(clock, draws), false, userId), now, {})
        == Ok(CouponReply(true, Some(CouponDetails(req.ctype, req.total, req.from, req.to, req.imageUrl,
                                                   req.description, req.discountType, req.value, 0))))
  {
    var row := NewCoupon(req, NewCode(clock, draws), caller.value.userId, clock.now);
    CouponRepo.RetrieveAfterCreate(db.coupons, row);
  }

  /**
   * A USER coupon is never usable through the grant `CreateCoupon` writes
   * for it: that grant's counters are NULL, read as 0, and `0 >= 0`.
   */
  lemma FreshUserGrantUnusable(db: Db, caller: Option<XContext.UserInfo>, req: CreateCouponRequest,
                               clock: Clock, draws: seq<nat>, env: Tx.Env, failing: set<Step>, now: Time)
    requires CodeInputs(clock, draws)
    requires req.ctype == PerUser && req.applyId.ToUser?
    requires forall c :: c in db.coupons.rows ==> c.code != NewCode(clock, draws)
    requires forall g :: g in db.userCoupons ==> g.couponId != db.coupons.nextId
    requires CreateCoupon(db, caller, req, clock, draws, env, failing).0.Ok?
    ensures var db' := CreateCoupon(db, caller, req, clock, draws, env, failing).1;
      RetrieveCouponByCode(db', RetrieveRequest(NewCode(clock, draws), true, Some(req.applyId.userId)), now, {})
        == Ok(Unusable)
  {
    var db' := CreateCoupon(db, caller, req, clock, draws, env, failing).1;
    var row := NewCoupon(req, NewCode(clock, draws), caller.value.userId, clock.now);
    CouponRepo.RetrieveAfterCreate(db.coupons, row);
    var id := db.coupons.nextId;
    var grant := UserCoupon(id, req.applyId.userId, 0, 0);
    assert db'.userCoupons == db.userCoupons + [grant];
    UserGrantIsLast(db.userCoupons, grant);
  }

  lemma {:induction false} UserGrantIsLast(grants: UserCouponRepo.Table, g: UserCoupon)
    requires forall h :: h in grants ==> h.couponId != g.couponId
    ensures UserCouponRepo.RetrieveByCouponIdUserId(grants + [g], g.couponId, g.userId, false) == Ok(g)
  {
    if grants == [] {
      assert grants + [g] == [g];
    } else {
      assert (grants + [g])[1..] == grants[1..] + [g];
      assert grants[0] in grants;
      UserGrantIsLast(grants[1..], g);
    }
  }

  /** A successful redemption shows up in the redeeming user's listing. */
  lemma ApplyThenList(db: Db, user: XContext.UserInfo, code: string, at: Time, failing: set<Step>, ctx: XContext.Context)
    requires ApplyCoupon(db, Some(user), code, at, failing).0.Pass?
    requires XContext.ExtractUserInfoFromContext(ctx) == Ok(user)
    ensures var r := ListUsedCoupon(ApplyCoupon(db, Some(user), code, at, failing).1, ctx, {});
      r.Ok? && exists c :: c in db.coupons.rows && c.code == code && UsedItem(code, c.description, c.imageUrl, at) in r.value
  {
    var db' := ApplyCoupon(db, Some(user), code, at, failing).1;
    var c := CouponRepo.RetrieveByCode(db.coupons, code, CouponLookup in failing).value;
    var u := UsedCoupon(c.id, user.userId, at);
    assert u in db'.used;
    assert Redeemed(db', user.userId, ItemOf((u, c)));
  }

  /** As written, a redemption makes the redeeming user's listing fail instead of showing it. */
  lemma ApplyThenListAsWritten(db: Db, user: XContext.UserInfo, code: string, at: Time, failing: set<Step>, ctx: XContext.Context)
    requires ApplyCoupon(db, Some(user), code, at, failing).0.Pass?
    requires XContext.ExtractUserInfoFromContext(ctx) == Ok(user)
    ensures ListUsedCouponAsWritten(ApplyCoupon(db, Some(user), code, at, failing).1, ctx, {}) == Err(Internal)
  {
    var db' := ApplyCoupon(db, Some(user), code, at, failing).1;
    var c := CouponRepo.RetrieveByCode(db.coupons, code, CouponLookup in failing).value;
    var u := UsedCoupon(c.id, user.userId, at);
    assert u in db'.used;
    assert Redeemed(db', user.userId, ItemOf((u, c)));
  }
}

=== FILE: crypto_util.dfy ===
/**
 * Random password and coupon-code generation. The random source is an
 * input: `draws` holds the successive results of `rand.Intn(len(charset))`,
 * so each draw is below the size of the character set it indexes.
 */
module CryptoUtil {
  import opened StringUtil

  const LetterBytes: string := "abcdefghijklmnopqrstuvwxyzABCDEFGHIJKLMNOPQRSTUVWXYZ"
  const SpecialBytes: string := "!@#$%^&*()_+-=[]{}\\|;':\",.<>/?`~"
  const NumBytes: string := "0123456789"

  /** Alphabet of the random coupon-code suffix, and the suffix length. */
  const Charset: string := "ABCDEFGHIJKLMNOPQRSTUVWXYZ0123456789"
  const RandLength: nat := 5

  predicate DrawsBelow(draws: seq<nat>, bound: nat) {
    forall i :: 0 <= i < |draws| ==> draws[i] < bound
  }

  /** `charset[draws[0]]`, `charset[draws[1]]`, ... */
  function Pick(charset: string, draws: seq<nat>): (r: string)
    requires DrawsBelow(draws, |charset|)
    ensures |r| == |draws|
    ensures forall i :: 0 <= i < |r| ==> r[i] in charset
  {
    if draws == [] then ""
    else [charset[draws[0]]] + Pick(charset, draws[1..])
  }

  /** The character class a password draws from: letters, else special, else digits. */
  function PasswordClass(useLetters: bool, useSpecial: bool, useNum: bool): (cls: string)
    ensures useLetters ==> cls == LetterBytes
    ensures !useLetters && useSpecial ==> cls == SpecialBytes
    ensures !useLetters && !useSpecial && useNum ==> cls == NumBytes
    ensures cls == "" <==> !useLetters && !useSpecial && !useNum
  {
    if useLetters then LetterBytes
    else if useSpecial then SpecialBytes
    else if useNum then NumBytes
    else ""
  }

  /** `n` zero bytes: the content of `make([]byte, n)` when no class is enabled. */
  function ZeroBytes(n: nat): (r: string)
    ensures |r| == n
    ensures forall i :: 0 <= i < n ==> r[i] == 0 as char
  {
    if n == 0 then "" else [0 as char] + ZeroBytes(n - 1)
  }

  /**
   * A password of exactly `length` bytes, every byte drawn from the
   * highest-priority enabled class; all zero bytes when no class is enabled.
   */
  function GeneratePassword(length: nat, useLetters: bool, useSpecial: bool, useNum: bool, draws: seq<nat>): (r: string)
    requires |draws| == length
    requires DrawsBelow(draws, |PasswordClass(useLetters, useSpecial, useNum)|) || PasswordClass(useLetters, useSpecial, useNum) == ""
    ensures |r| == length
    ensures useLetters ==> forall i :: 0 <= i < length ==> r[i] in LetterBytes
    ensures !useLetters && useSpecial ==> forall i :: 0 <= i < length ==> r[i] in SpecialBytes
    ensures !useLetters && !useSpecial && useNum ==> forall i :: 0 <= i < length ==> r[i] in NumBytes
    ensures !useLetters && !useSpecial && !useNum ==> forall i :: 0 <= i < length ==> r[i] == 0 as char
  {
    var cls := PasswordClass(useLetters, useSpecial, useNum);
    if cls == "" then ZeroBytes(length) else Pick(cls, draws)
  }

  /** `stringWithCharset`: `length` characters of `Charset`. */
  function StringWithCharset(draws: seq<nat>): (r: string)
    requires DrawsBelow(draws, |Charset|)
    ensures |r| == |draws|
    ensures forall i :: 0 <= i < |r| ==> r[i] in Charset
  {
    Pick(Charset, draws)
  }

  /** ASCII upper-casing, character by character. */
  function UpperChar(c: char): char {
    if 'a' <= c <= 'z' then (c as int - 'a' as int + 'A' as int) as char else c
  }

  function AsciiUpper(s: string): (r: string)
    ensures |r| == |s|
    ensures forall i :: 0 <= i < |s| ==> r[i] == UpperChar(s[i])
  {
    if s == "" then "" else [UpperChar(s[0])] + AsciiUpper(s[1..])
  }

  /** A number below 100 as exactly two decimal digits, zero-padded below 10. */
  function TwoDigits(n: nat): (r: string)
    requires n < 100
    ensures |r| == 2
    ensures forall i :: 0 <= i < 2 ==> '0' <= r[i] <= '9'
  {
    if n < 10 then "0" + [DigitChar(n)]
    else [DigitChar(n / 10)] + [DigitChar(n % 10)]
  }

  /** The number two decimal digits denote. */
  function TwoDigitsValue(s: string): int
    requires |s| == 2
  {
    10 * DigitValue(s[0]) + DigitValue(s[1])
  }

  /** Formatting a date part and reading it back gives the same number. */
  lemma TwoDigitsRoundTrip(n: nat)
    requires n < 100
    ensures TwoDigitsValue(TwoDigits(n)) == n
  {
  }

  /**
   * `GenerateCode`: the upper-cased prefix, then the year modulo 100, the
   * month and the day as two digits each, then `RandLength` characters of
   * `Charset`.
   */
  function GenerateCode(prefix: string, year: nat, month: nat, day: nat, draws: seq<nat>): (r: string)
    requires 1 <= month <= 12 && 1 <= day <= 31
    requires |draws| == RandLength && DrawsBelow(draws, |Charset|)
    ensures |r| == |prefix| + 11
    ensures r[..|prefix|] == AsciiUpper(prefix)
    ensures TwoDigitsValue(r[|prefix|..|prefix| + 2]) == year % 100
    ensures TwoDigitsValue(r[|prefix| + 2..|prefix| + 4]) == month
    ensures TwoDigitsValue(r[|prefix| + 4..|prefix| + 6]) == day
    ensures forall i :: |prefix| + 6 <= i < |r| ==> r[i] in Charset
  {
    var y := TwoDigits(year % 100);
    var m := TwoDigits(month);
    var d := TwoDigits(day);
    var suffix := StringWithCharset(draws);
    var r := AsciiUpper(prefix + y + m + d + suffix);
    CodeTailNoLower(y, m, d, suffix);
    CodeParts(prefix, y, m, d, suffix);
    TwoDigitsRoundTrip(year % 100);
    TwoDigitsRoundTrip(month);
    TwoDigitsRoundTrip(day);
    r
  }

  /** Upper-casing distributes over concatenation. */
  lemma {:induction false} UpperConcat(a: string, b: string)
    ensures AsciiUpper(a + b) == AsciiUpper(a) + AsciiUpper(b)
  {
    if a != "" {
      assert (a + b)[1..] == a[1..] + b;
      UpperConcat(a[1..], b);
    } else {
      assert a + b == b;
    }
  }

  predicate NoLower(s: string) {
    forall i :: 0 <= i < |s| ==> !('a' <= s[i] <= 'z')
  }

  /** Upper-casing leaves a string without lower-case letters alone. */
  lemma {:induction false} UpperKeepsNoLower(s: string)
    requires NoLower(s)
    ensures AsciiUpper(s) == s
  {
    if s != "" {
      UpperKeepsNoLower(s[1..]);
    }
  }

  /** `Charset` holds no lower-case letter. */
  lemma CharsetNoLower(c: char)
    requires c in Charset
    ensures !('a' <= c <= 'z')
  {
    assert NoLower(Charset);
    var i :| 0 <= i < |Charset| && Charset[i] == c;
  }

  /** Only the prefix of a generated code is changed by upper-casing. */
  lemma CodeLayout(prefix: string, tail: string)
    requires NoLower(tail)
    ensures AsciiUpper(prefix + tail) == AsciiUpper(prefix) + tail
  {
    UpperKeepsNoLower(tail);
    UpperConcat(prefix, tail);
  }

  /** Where each part of a generated code sits. */
  lemma CodeParts(prefix: string, y: string, m: string, d: string, suffix: string)
    requires |y| == 2 && |m| == 2 && |d| == 2
    requires NoLower(y + m + d + suffix)
    ensures var r := AsciiUpper(prefix + y + m + d + suffix);
      && |r| == |prefix| + 6 + |suffix|
      && r[..|prefix|] == AsciiUpper(prefix)
      && r[|prefix|..|prefix| + 2] == y
      && r[|prefix| + 2..|prefix| + 4] == m
      && r[|prefix| + 4..|prefix| + 6] == d
      && r[|prefix| + 6..] == suffix
  {
    var tail := y + m + d + suffix;
    assert prefix + y + m + d + suffix == prefix + tail;
    CodeLayout(prefix, tail);
    var up := AsciiUpper(prefix);
    var r := up + tail;
    assert r[..|prefix|] == up;
    assert r[|prefix|..] == tail;
    assert tail[..2] == y;
    assert tail[2..4] == m;
    assert tail[4..6] == d;
    assert tail[6..] == suffix;
  }

  /** The date digits and the random suffix contain no lower-case letter. */
  lemma CodeTailNoLower(y: string, m: string, d: string, suffix: string)
    requires |y| == 2 && |m| == 2 && |d| == 2
    requires forall i :: 0 <= i < 2 ==> '0' <= y[i] <= '9' && '0' <= m[i] <= '9' && '0' <= d[i] <= '9'
    requires forall i :: 0 <= i < |suffix| ==> suffix[i] in Charset
    ensures NoLower(y + m + d + suffix)
  {
    var tail := y + m + d + suffix;
    forall i | 0 <= i < |tail|
      ensures !('a' <= tail[i] <= 'z')
    {
      if i < 6 {
        assert '0' <= tail[i] <= '9';
      } else {
        assert tail[i] == suffix[i - 6];
        CharsetNoLower(suffix[i - 6]);
      }
    }
  }
}

=== FILE: identity.dfy ===
/** The caller's identity as the services see it, and the admin check. */
module Identity {
  import opened Wrappers
  import opened Status
  import XContext

  /** Role names of the user entity. */
  const RoleAdmin: string := "ADMIN"
  const RoleSuperAdmin: string := "SUPER_ADMIN"
  const RoleUser: string := "USER"

  /**
   * `validAdmin`: the caller's info when it is present and its role is
   * Admin or SuperAdmin; PermissionDenied otherwise.
   */
  function ValidAdmin(caller: Option<XContext.UserInfo>): (r: Result<XContext.UserInfo, Code>)
    ensures r.Ok? <==> caller.Some? && (caller.value.role == RoleAdmin || caller.value.role == RoleSuperAdmin)
    ensures r.Ok? ==> r.value == caller.value
    ensures r.Err? ==> r.error == PermissionDenied
  {
    match caller
    case None => Err(PermissionDenied)
    case Some(info) =>
      if info.role in [RoleAdmin, RoleSuperAdmin] then Ok(info) else Err(PermissionDenied)
  }
}

=== FILE: login_history_repo.dfy ===
/** The login-history table. */
module LoginHistoryRepo {
  import opened Wrappers
  import opened Status
  import opened PgTypes
  import opened UserEntity
  import Rows

  type Table = seq<LoginHistory>

  /** `Create`: append one history row with the given fields. */
  function Create(t: Table, data: LoginHistory, fails: bool): (r: (Outcome<DbError>, Table))
    ensures fails ==> r == (Fail(DriverError), t)
    ensures !fails ==> r.0 == Pass && |r.1| == |t| + 1 && r.1[..|t|] == t && r.1[|t|] == data
  {
    if fails then (Fail(DriverError), t) else (Pass, t + [data])
  }

  predicate Session(h: LoginHistory, userId: int, accessToken: string) {
    h.accessToken == accessToken && h.userId == userId
  }

  /**
   * `UpdateLogout`: stamp `logout_at` with the database's clock on the rows
   * with that token and user, and on no other row or column; ErrNoRows when
   * none matched.
   */
  function UpdateLogout(t: Table, userId: int, accessToken: string, now: Time, fails: bool): (r: (Outcome<DbError>, Table))
    ensures fails ==> r == (Fail(DriverError), t)
    ensures !fails ==> (r.0 == Fail(ErrNoRows) <==> forall h :: h in t ==> !Session(h, userId, accessToken))
    ensures r.0.Fail? ==> r.1 == t
    ensures |r.1| == |t|
    ensures forall i :: 0 <= i < |t| ==>
      r.1[i] == if r.0.Pass? && Session(t[i], userId, accessToken) then t[i].(logoutAt := Some(now)) else t[i]
  {
    if fails then (Fail(DriverError), t)
    else if Rows.Count(t, (h: LoginHistory) => Session(h, userId, accessToken)) == 0 then (Fail(ErrNoRows), t)
    else (Pass, Rows.UpdateWhere(t, (h: LoginHistory) => Session(h, userId, accessToken),
                                 (h: LoginHistory) => h.(logoutAt := Some(now))))
  }

  /** A session just recorded can be logged out, and is then closed. */
  lemma LogoutAfterCreate(t: Table, data: LoginHistory, now: Time)
    ensures var t1 := Create(t, data, false).1;
      var (o, t2) := UpdateLogout(t1, data.userId, data.accessToken, now, false);
      o.Pass? && t2[|t|].logoutAt == Some(now) && t2[|t|].loginAt == data.loginAt
  {
    var t1 := Create(t, data, false).1;
    assert t1[|t|] == data && t1[|t|] in t1;
  }
}

=== FILE: lru.dfy ===
/**
 * The in-memory cache behind the `Cache` interface: `Add`, `Get` and
 * `Remove` over a finite map. Capacity eviction and time-to-live expiry are
 * not modelled, so an entry stays until it is removed or overwritten.
 */
module Lru {
  import opened Wrappers

  type Cache<K, V> = map<K, V>

  /** "value of k does not exists" / "unable to remove value of k". */
  datatype CacheError = Missing

  /** Insert or overwrite `k`; never fails. */
  function Add<K(!new), V>(c: Cache<K, V>, k: K, v: V): (r: (Cache<K, V>, Outcome<CacheError>))
    ensures r.1 == Pass
    ensures k in r.0 && r.0[k] == v
    ensures r.0.Keys == c.Keys + {k}
    ensures forall k' :: k' in c && k' != k ==> r.0[k'] == c[k']
  {
    (c[k := v], Pass)
  }

  /** The stored value, or an error when `k` is absent. */
  function Get<K, V>(c: Cache<K, V>, k: K): (r: Result<V, CacheError>)
    ensures r.Ok? <==> k in c
    ensures r.Ok? ==> r.value == c[k]
  {
    if k in c then Ok(c[k]) else Err(Missing)
  }

  /** Drop `k`; an error, and no change, when it was absent. */
  function Remove<K(!new), V>(c: Cache<K, V>, k: K): (r: (Cache<K, V>, Outcome<CacheError>))
    ensures r.1 == Pass <==> k in c
    ensures r.0.Keys == c.Keys - {k}
    ensures forall k' :: k' in r.0 ==> r.0[k'] == c[k']
  {
    if k in c then (c - {k}, Pass) else (c, Fail(Missing))
  }

  /** Without eviction, a value just added is read back with no error. */
  lemma GetAfterAdd<K(!new), V>(c: Cache<K, V>, k: K, v: V)
    ensures Get(Add(c, k, v).0, k) == Ok(v)
  {
  }

  /** After a successful remove the key reads as missing. */
  lemma GetAfterRemove<K(!new), V>(c: Cache<K, V>, k: K)
    ensures Get(Remove(c, k).0, k).Err?
  {
  }

  /** Adding or removing one key leaves the reads of every other key alone. */
  lemma OtherKeysUntouched<K(!new), V>(c: Cache<K, V>, k: K, v: V, k': K)
    requires k' != k
    ensures Get(Add(c, k, v).0, k') == Get(c, k')
    ensures Get(Remove(c, k).0, k') == Get(c, k')
  {
  }
}

=== FILE: metadata.dfy ===
/**
 * gRPC metadata built by the HTTP gateway: the caller's session (IP and
 * user agent) and, when the request carries a valid bearer token
 * (section 2.1 of RFC 6750), the caller's user id and role.
 */
module Metadata {
  import opened Wrappers
  import opened StringUtil
  import XContext

  /** Metadata: each key maps to its list of values. */
  type MD = map<string, seq<string>>

  const Authorization: string := "Authorization"
  const Bearer: string := "Bearer"
  const UserIdKey: string := "user_id"
  const IpKey: string := "ip"
  const UserAgentKey: string := "user-agent"
  const RoleKey: string := "role"
  const XForwardedForKey: string := "x-forwarded-for"

  /** `md.Get(k)`: the values under `k`, none when the key is absent. */
  function Get(md: MD, k: string): seq<string> {
    if k in md then md[k] else []
  }

  /** `metadata.Join`: per key, the values of `a` followed by those of `b`. */
  function Join(a: MD, b: MD): (r: MD)
    ensures r.Keys == a.Keys + b.Keys
    ensures forall k :: Get(r, k) == Get(a, k) + Get(b, k)
  {
    var r := map k | k in a.Keys + b.Keys :: Get(a, k) + Get(b, k);
    assert forall k :: k !in r ==> Get(a, k) == [] && Get(b, k) == [];
    r
  }

  /** The decimal digits of a natural number, most significant first. */
  function NatDigits(n: nat): (r: string)
    ensures |r| >= 1
    ensures forall i :: 0 <= i < |r| ==> '0' <= r[i] <= '9'
    decreases n
  {
    if n < 10 then [DigitChar(n)] else NatDigits(n / 10) + [DigitChar(n % 10)]
  }

  /** `fmt.Sprint` of an integer: a minus sign for negatives, then the digits. */
  function Decimal(n: int): string {
    if n < 0 then "-" + NatDigits(-n) else NatDigits(n)
  }

  /** The number a string of decimal digits denotes. */
  function ParseNat(s: string): int {
    if s == "" then 0 else 10 * ParseNat(s[..|s| - 1]) + DigitValue(s[|s| - 1])
  }

  /** Reads a decimal produced by `Decimal`, sign included. */
  function ParseDecimal(s: string): int {
    if |s| > 0 && s[0] == '-' then -ParseNat(s[1..]) else ParseNat(s)
  }

  lemma {:induction false} NatDigitsRoundTrip(n: nat)
    ensures ParseNat(NatDigits(n)) == n
    decreases n
  {
    if n >= 10 {
      var s := NatDigits(n);
      assert s[..|s| - 1] == NatDigits(n / 10);
      NatDigitsRoundTrip(n / 10);
    }
  }

  /** The user id written into metadata reads back as the same number. */
  lemma DecimalRoundTrip(n: int)
    ensures ParseDecimal(Decimal(n)) == n
  {
    if n < 0 {
      assert Decimal(n)[1..] == NatDigits(-n);
      NatDigitsRoundTrip(-n);
    } else {
      NatDigitsRoundTrip(n);
    }
  }

  /** `strings.Cut(s, sep)`: the text before the first `sep`, the text after it, and whether it was found. */
  function Cut(s: string, sep: char): (r: (string, string, bool))
    ensures r.2 ==> s == r.0 + [sep] + r.1 && sep !in r.0
    ensures !r.2 ==> r.0 == s && r.1 == "" && sep !in s
  {
    if s == "" then ("", "", false)
    else if s[0] == sep then ("", s[1..], true)
    else
      var rest := Cut(s[1..], sep);
      assert s == [s[0]] + s[1..];
      ([s[0]] + rest.0, rest.1, rest.2)
  }

  /** `ImportUserInfoToMD`: exactly the keys user_id (in decimal) and role. */
  function ImportUserInfoToMD(info: XContext.UserInfo): (r: MD)
    ensures r.Keys == {UserIdKey, RoleKey}
    ensures r[UserIdKey] == [Decimal(info.userId)] && r[RoleKey] == [info.role]
  {
    map[UserIdKey := [Decimal(info.userId)], RoleKey := [info.role]]
  }

  /** `ImportSessionToMD`: exactly the keys ip and user-agent. */
  function ImportSessionToMD(session: XContext.Session): (r: MD)
    ensures r.Keys == {IpKey, UserAgentKey}
    ensures r[IpKey] == [session.ip] && r[UserAgentKey] == [session.userAgent]
  {
    map[IpKey := [session.ip], UserAgentKey := [session.userAgent]]
  }

  /** The session the gateway derives from incoming metadata. */
  function SessionOf(incoming: MD): XContext.Session {
    XContext.Session(Coalesce(Get(incoming, XForwardedForKey)), Coalesce(Get(incoming, UserAgentKey)), "")
  }

  /** The user info a header carries: a space, the exact scheme "Bearer", and a token that verifies. */
  function BearerUser(authorization: string, verify: string -> Option<XContext.UserInfo>): Option<XContext.UserInfo> {
    if authorization == "" then None
    else
      var (schema, token, found) := Cut(authorization, ' ');
      if schema == Bearer && found then verify(token) else None
  }

  /**
   * `MapMetaDataWithBearerToken`: the incoming metadata joined with the
   * session, and then with the user info when the bearer token verifies.
   */
  function MapMetaDataWithBearerToken(incoming: MD, authorization: string, verify: string -> Option<XContext.UserInfo>): (r: MD)
    ensures forall k :: Get(incoming, k) <= Get(r, k)
    ensures Get(r, IpKey) == Get(incoming, IpKey) + [Coalesce(Get(incoming, XForwardedForKey))]
    ensures Get(r, UserAgentKey) == Get(incoming, UserAgentKey) + [Coalesce(Get(incoming, UserAgentKey))]
    ensures BearerUser(authorization, verify).None? ==> Get(r, UserIdKey) == Get(incoming, UserIdKey) && Get(r, RoleKey) == Get(incoming, RoleKey)
    ensures BearerUser(authorization, verify).Some? ==>
      var info := BearerUser(authorization, verify).value;
      Get(r, UserIdKey) == Get(incoming, UserIdKey) + [Decimal(info.userId)] && Get(r, RoleKey) == Get(incoming, RoleKey) + [info.role]
  {
    var session := ImportSessionToMD(SessionOf(incoming));
    var md := Join(incoming, session);
    assert Get(session, UserIdKey) == [] && Get(session, RoleKey) == [];
    assert Get(md, UserIdKey) == Get(incoming, UserIdKey);
    assert Get(md, RoleKey) == Get(incoming, RoleKey);
    assert Get(md, IpKey) == Get(incoming, IpKey) + [Coalesce(Get(incoming, XForwardedForKey))];
    assert Get(md, UserAgentKey) == Get(incoming, UserAgentKey) + [Coalesce(Get(incoming, UserAgentKey))];
    match BearerUser(authorization, verify)
    case Some(info) =>
      var user := ImportUserInfoToMD(info);
      assert Get(user, IpKey) == [] && Get(user, UserAgentKey) == [];
      var r := Join(md, user);
      assert forall k :: Get(incoming, k) <= Get(md, k) <= Get(r, k);
      r
    case None => md
  }

  /** With no Authorization header no user info is added, whatever the verifier says. */
  lemma NoHeaderNoUser(incoming: MD, verify: string -> Option<XContext.UserInfo>)
    ensures Get(MapMetaDataWithBearerToken(incoming, "", verify), UserIdKey) == Get(incoming, UserIdKey)
    ensures Get(MapMetaDataWithBearerToken(incoming, "", verify), RoleKey) == Get(incoming, RoleKey)
  {
  }

  /**
   * User info is added exactly when the header splits at its first space
   * into the scheme "Bearer" and a token the verifier accepts.
   */
  lemma BearerAccepted(authorization: string, verify: string -> Option<XContext.UserInfo>)
    ensures BearerUser(authorization, verify).Some? <==>
      exists token :: authorization == Bearer + " " + token && verify(token).Some?
  {
    var (schema, token, found) := Cut(authorization, ' ');
    if BearerUser(authorization, verify).Some? {
      assert authorization == Bearer + " " + token;
    }
    forall t | authorization == Bearer + " " + t && verify(t).Some?
      ensures BearerUser(authorization, verify).Some?
    {
      assert authorization[..6] == Bearer && authorization[6] == ' ';
      assert ' ' !in Bearer;
      CutAt(Bearer, t, ' ');
    }
  }

  /** Cutting `a + [sep] + b` where `a` has no separator gives back `a` and `b`. */
  lemma {:induction false} CutAt(a: string, b: string, sep: char)
    requires sep !in a
    ensures Cut(a + [sep] + b, sep) == (a, b, true)
  {
    var s := a + [sep] + b;
    if a != "" {
      assert s[0] == a[0] != sep;
      assert s[1..] == a[1..] + [sep] + b;
      CutAt(a[1..], b, sep);
      assert Cut(s, sep) == ([s[0]] + Cut(s[1..], sep).0, b, true);
      assert [a[0]] + a[1..] == a;
    } else {
      assert s == [sep] + b;
    }
  }

  /** "bearer" in lower case, or a header with no space, never adds user info. */
  lemma SchemeIsExact(token: string, verify: string -> Option<XContext.UserInfo>)
    ensures BearerUser("bearer " + token, verify).None?
    ensures BearerUser(Bearer, verify).None?
  {
    CutAt("bearer", token, ' ');
    assert "bearer " + token == "bearer" + [' '] + token;
  }
}

=== FILE: pg_types.dfy ===
/**
 * The nullable column values built by the Postgres helpers: a value plus a
 * `valid` flag, where `valid == false` stands for SQL NULL. Reading a NULL
 * column yields the type's zero value.
 */
module PgTypes {

  /** Instants are abstract integers; `ZeroTime` is Go's zero `time.Time`. */
  type Time = int
  const ZeroTime: Time := 0

  datatype Int8 = Int8(int64: int, valid: bool)
  datatype Text = Text(str: string, valid: bool)
  datatype Timestamp = Timestamp(time: Time, valid: bool)

  /** What a read of the column gives: the value, or zero for NULL. */
  function Int8Value(v: Int8): int { if v.valid then v.int64 else 0 }
  function TextValue(v: Text): string { if v.valid then v.str else "" }
  function TimestampValue(v: Timestamp): Time { if v.valid then v.time else ZeroTime }

  /** SQL `column = $1`: NULL equals nothing. */
  predicate TextEquals(v: Text, s: string) { v.valid && v.str == s }

  /** An int64 that is NULL exactly when it is zero. */
  function PgTypeInt8(src: int): (r: Int8)
    ensures r.int64 == src
    ensures r.valid <==> src != 0
    ensures Int8Value(r) == src
  {
    Int8(src, src != 0)
  }

  /** A text that is NULL exactly when it is empty. */
  function PgTypeText(src: string): (r: Text)
    ensures r.str == src
    ensures r.valid <==> src != ""
    ensures TextValue(r) == src
    ensures forall s :: TextEquals(r, s) <==> src != "" && s == src
  {
    Text(src, src != "")
  }

  /**
   * The timestamp constructor as written: its validity flag is the
   * opposite of the other two constructors', so a real instant becomes NULL
   * and the zero time becomes a non-NULL value.
   */
  function PgTypeTimestamp(src: Time): (r: Timestamp)
    ensures r.time == src
    ensures r.valid <==> src == ZeroTime
  {
    Timestamp(src, src == ZeroTime)
  }

  /** The timestamp constructor with the validity flag the other two use. */
  function PgTypeTimestampCorrected(src: Time): (r: Timestamp)
    ensures r.time == src
    ensures r.valid <==> src != ZeroTime
    ensures TimestampValue(r) == src
  {
    Timestamp(src, src != ZeroTime)
  }

  /** As written, every non-zero instant is stored as NULL and read back as the zero time. */
  lemma TimestampLosesInstant(t: Time)
    requires t != ZeroTime
    ensures !PgTypeTimestamp(t).valid
    ensures TimestampValue(PgTypeTimestamp(t)) == ZeroTime != t
  {
  }

  /** The concrete instance: one nanosecond after the zero time does not survive the round trip. */
  lemma TimestampCounterexample()
    ensures TimestampValue(PgTypeTimestamp(1)) != 1
    ensures TimestampValue(PgTypeTimestampCorrected(1)) == 1
  {
  }
}

=== FILE: product_coupon_repo.dfy ===
/** The per-product coupon grants table. */
module ProductCouponRepo {
  import opened Wrappers
  import opened Status
  import opened CouponEntity
  import Rows

  /** The rows, and the next value of the table's own id sequence. */
  datatype Table = Table(rows: seq<ProductCoupon>, nextId: int)

  /** `Create`: add exactly one grant row; the row's own id comes from the sequence. */
  function Create(t: Table, couponId: int, productId: int, fails: bool): (r: (Outcome<DbError>, Table))
    ensures fails ==> r == (Fail(DriverError), t)
    ensures !fails ==> r.0 == Pass && r.1.rows == t.rows + [ProductCoupon(t.nextId, couponId, productId, 0, 0)]
    ensures !fails ==> r.1.nextId > t.nextId
  {
    if fails then (Fail(DriverError), t)
    else (Pass, Table(t.rows + [ProductCoupon(t.nextId, couponId, productId, 0, 0)], t.nextId + 1))
  }

  /** `DeleteByCouponID`: remove every row of that coupon; ErrNoRows when none was removed. */
  function DeleteByCouponId(t: Table, couponId: int, fails: bool): (r: (Outcome<DbError>, Table))
    ensures fails ==> r == (Fail(DriverError), t)
    ensures !fails ==> (r.0 == Fail(ErrNoRows) <==> forall g :: g in t.rows ==> g.couponId != couponId)
    ensures r.0.Fail? ==> r.1 == t
    ensures forall g :: g in r.1.rows <==> g in t.rows && (r.0.Pass? ==> g.couponId != couponId)
  {
    if fails then (Fail(DriverError), t)
    else if Rows.Count(t.rows, (g: ProductCoupon) => g.couponId == couponId) == 0 then (Fail(ErrNoRows), t)
    else (Pass, t.(rows := Rows.Filter(t.rows, (g: ProductCoupon) => g.couponId != couponId)))
  }

  /**
   * `RetrieveByCouponID`: despite its name the query filters on the row's
   * own `id` column, not on `coupon_id`; ErrNoRows when no row has that id.
   */
  function RetrieveByCouponId(t: Table, couponId: int, fails: bool): (r: Result<ProductCoupon, DbError>)
    ensures fails ==> r == Err(DriverError)
    ensures !fails ==> (r == Err(ErrNoRows) <==> forall g :: g in t.rows ==> g.id != couponId)
    ensures r.Ok? ==> r.value in t.rows && r.value.id == couponId
  {
    if fails then Err(DriverError)
    else match Rows.First(t.rows, (g: ProductCoupon) => g.id == couponId)
      case Some(g) => Ok(g)
      case None => Err(ErrNoRows)
  }

  /**
   * The lookup by coupon id misses a grant of that coupon whose own row id
   * differs: a table holding only the grant (id 1, coupon 2) answers
   * ErrNoRows for coupon 2.
   */
  lemma LookupUsesRowId()
    ensures RetrieveByCouponId(Table([ProductCoupon(1, 2, 3, 0, 5)], 2), 2, false) == Err(ErrNoRows)
  {
  }
}

=== FILE: product_entity.dfy ===
/**
 * Rows of the product component, with the columns the product service
 * reads and writes.
 */
module ProductEntity {
  import opened Wrappers

  datatype Product = Product(
    id: int,
    name: string,
    ptype: string,
    description: string,
    imageUrls: seq<string>,
    createdBy: int,
    price: real)

  /**
   * The new values of an update; `None` is a NULL parameter, which
   * `COALESCE` turns into "keep the stored value".
   */
  datatype ProductPatch = ProductPatch(
    name: Option<string>,
    ptype: Option<string>,
    description: Option<string>,
    price: Option<real>)

  /** One purchase: the listed price, the discounted amount, what is charged and the coupon used. */
  datatype PurchasedProduct = PurchasedProduct(
    productId: int,
    userId: int,
    price: real,
    discount: real,
    total: real,
    coupon: Option<string>)
}

=== FILE: product_repo.dfy ===
/** The products table. */
module ProductRepo {
  import opened Wrappers
  import opened Status
  import opened ProductEntity
  import Rows

  /** The rows in insertion order, and the next value of the id sequence. */
  datatype Table = Table(rows: seq<Product>, nextId: int)

  function Min(a: int, b: int): int { if a <= b then a else b }

  /**
   * `List`: `LIMIT limit OFFSET offset` over the rows in table order. A
   * negative limit or offset is rejected by the database.
   */
  function List(t: Table, offset: int, limit: int, fails: bool): (r: Result<seq<Product>, DbError>)
    ensures r.Err? <==> fails || offset < 0 || limit < 0
    ensures r.Ok? ==> |r.value| <= limit
    ensures r.Ok? ==> |r.value| == Min(limit, if offset <= |t.rows| then |t.rows| - offset else 0)
    ensures r.Ok? ==> forall i :: 0 <= i < |r.value| ==> offset + i < |t.rows| && r.value[i] == t.rows[offset + i]
  {
    if fails || offset < 0 || limit < 0 then Err(DriverError)
    else
      var start := Min(offset, |t.rows|);
      var stop := Min(start + limit, |t.rows|);
      Ok(t.rows[start..stop])
  }

  /** `RetrieveByID`: the row with that id; ErrNoRows when none has it. */
  function RetrieveById(t: Table, id: int, fails: bool): (r: Result<Product, DbError>)
    ensures fails ==> r == Err(DriverError)
    ensures !fails ==> (r == Err(ErrNoRows) <==> forall p :: p in t.rows ==> p.id != id)
    ensures r.Ok? ==> r.value in t.rows && r.value.id == id
  {
    if fails then Err(DriverError)
    else match Rows.First(t.rows, (p: Product) => p.id == id)
      case Some(p) => Ok(p)
      case None => Err(ErrNoRows)
  }

  /** `Create`: insert every column but the id, which the sequence assigns, and return it. */
  function Create(t: Table, data: Product, fails: bool): (r: (Result<int, DbError>, Table))
    ensures fails ==> r == (Err(DriverError), t)
    ensures !fails ==> r.0 == Ok(t.nextId) && r.1.rows == t.rows + [data.(id := t.nextId)]
    ensures !fails ==> r.1.nextId > t.nextId
  {
    if fails then (Err(DriverError), t)
    else (Ok(t.nextId), Table(t.rows + [data.(id := t.nextId)], t.nextId + 1))
  }

  /** `COALESCE($n, column)` for each patched column. */
  function Patch(p: Product, patch: ProductPatch): Product {
    p.(name := patch.name.GetOr(p.name),
       ptype := patch.ptype.GetOr(p.ptype),
       description := patch.description.GetOr(p.description),
       price := patch.price.GetOr(p.price))
  }

  /**
   * `UpdateByID`: on the row with that id, replace name, type, description
   * and price by each non-NULL new value; every other column and row stays.
   * ErrNoRows when no row has that id.
   */
  function UpdateById(t: Table, id: int, patch: ProductPatch, fails: bool): (r: (Outcome<DbError>, Table))
    ensures fails ==> r == (Fail(DriverError), t)
    ensures !fails ==> (r.0 == Fail(ErrNoRows) <==> forall p :: p in t.rows ==> p.id != id)
    ensures r.0.Fail? ==> r.1 == t
    ensures |r.1.rows| == |t.rows| && r.1.nextId == t.nextId
    ensures forall i :: 0 <= i < |t.rows| && t.rows[i].id != id ==> r.1.rows[i] == t.rows[i]
    ensures r.0.Pass? ==> forall i :: 0 <= i < |t.rows| && t.rows[i].id == id ==>
      var (old_, new_) := (t.rows[i], r.1.rows[i]);
      && new_.id == old_.id && new_.imageUrls == old_.imageUrls && new_.createdBy == old_.createdBy
      && (patch.name.Some? ==> new_.name == patch.name.value) && (patch.name.None? ==> new_.name == old_.name)
      && (patch.ptype.Some? ==> new_.ptype == patch.ptype.value) && (patch.ptype.None? ==> new_.ptype == old_.ptype)
      && (patch.description.Some? ==> new_.description == patch.description.value)
      && (patch.description.None? ==> new_.description == old_.description)
      && (patch.price.Some? ==> new_.price == patch.price.value) && (patch.price.None? ==> new_.price == old_.price)
  {
    if fails then (Fail(DriverError), t)
    else if Rows.Count(t.rows, (p: Product) => p.id == id) == 0 then (Fail(ErrNoRows), t)
    else (Pass, t.(rows := Rows.UpdateWhere(t.rows, (p: Product) => p.id == id, (p: Product) => Patch(p, patch))))
  }

  /** `DeleteByID`: remove the row with that id; ErrNoRows when none was removed. */
  function DeleteById(t: Table, id: int, fails: bool): (r: (Outcome<DbError>, Table))
    ensures fails ==> r == (Fail(DriverError), t)
    ensures !fails ==> (r.0 == Fail(ErrNoRows) <==> forall p :: p in t.rows ==> p.id != id)
    ensures r.0.Fail? ==> r.1 == t
    ensures forall p :: p in r.1.rows <==> p in t.rows && (r.0.Pass? ==> p.id != id)
    ensures r.1.nextId == t.nextId
  {
    if fails then (Fail(DriverError), t)
    else if Rows.Count(t.rows, (p: Product) => p.id == id) == 0 then (Fail(ErrNoRows), t)
    else (Pass, t.(rows := Rows.Filter(t.rows, (p: Product) => p.id != id)))
  }

  /** `DeleteByIDs`: remove every row whose id is listed; ErrNoRows when none was removed. */
  function DeleteByIds(t: Table, ids: seq<int>, fails: bool): (r: (Outcome<DbError>, Table))
    ensures fails ==> r == (Fail(DriverError), t)
    ensures !fails ==> (r.0 == Fail(ErrNoRows) <==> forall p :: p in t.rows ==> p.id !in ids)
    ensures r.0.Fail? ==> r.1 == t
    ensures forall p :: p in r.1.rows <==> p in t.rows && (r.0.Pass? ==> p.id !in ids)
    ensures r.1.nextId == t.nextId
  {
    if fails then (Fail(DriverError), t)
    else if Rows.Count(t.rows, (p: Product) => p.id in ids) == 0 then (Fail(ErrNoRows), t)
    else (Pass, t.(rows := Rows.Filter(t.rows, (p: Product) => p.id !in ids)))
  }

  /** `Count`: `SELECT COUNT(1)`. */
  function Count(t: Table, fails: bool): (r: Result<int, DbError>)
    ensures r.Err? <==> fails
    ensures r.Ok? ==> r.value == |t.rows|
  {
    if fails then Err(DriverError) else Ok(|t.rows|)
  }

  /** A create adds one to the count. */
  lemma CountAfterCreate(t: Table, data: Product)
    ensures Count(Create(t, data, false).1, false) == Ok(Count(t, false).value + 1)
  {
  }

  /** A delete by id lowers the count by the number of rows that had that id. */
  lemma CountAfterDelete(t: Table, id: int)
    requires DeleteById(t, id, false).0.Pass?
    ensures Count(DeleteById(t, id, false).1, false).value
         == |t.rows| - Rows.Count(t.rows, (p: Product) => p.id == id)
  {
    Rows.FilterCount(t.rows, (p: Product) => p.id != id, (p: Product) => p.id == id);
  }

  /** Pages of size `n` tile the table: page `k` starts where page `k - 1` ends. */
  lemma ListPagesTile(t: Table, n: nat, k: nat)
    requires (k + 1) * n <= |t.rows|
    ensures List(t, 0, (k + 1) * n, false).value == List(t, 0, k * n, false).value + List(t, k * n, n, false).value
  {
    assert k * n + n == (k + 1) * n;
    assert k * n <= (k + 1) * n;
    assert t.rows[0..(k + 1) * n] == t.rows[0..k * n] + t.rows[k * n..k * n + n];
  }

  /** An update never changes how many rows there are, nor which ids exist. */
  lemma UpdateKeepsIds(t: Table, id: int, patch: ProductPatch, fails: bool)
    ensures var t' := UpdateById(t, id, patch, fails).1;
      forall i :: 0 <= i < |t.rows| ==> t'.rows[i].id == t.rows[i].id
  {
  }
}

=== FILE: product_service.dfy ===
/**
 * The product service: admin-only catalogue changes, the listing and the
 * purchase flow. The coupon service is a remote peer: the answers it gives
 * are parameters, and every call made to it is recorded in a trace.
 */
module ProductService {
  import opened Wrappers
  import opened Status
  import opened ProductEntity
  import opened CouponEntity
  import XContext
  import Identity
  import Tx
  import ProductRepo
  import Rows

  datatype Db = Db(products: ProductRepo.Table, purchases: seq<PurchasedProduct>)

  /** The database calls of this service, each of which may fail. */
  datatype Step =
    | ProductInsert | ProductLookup | ProductUpdate | ProductDelete
    | ProductList | ProductCount | PurchaseInsert

  datatype CreateProductRequest = CreateProductRequest(
    name: string, ptype: string, description: string, imageUrls: seq<string>, price: real)

  /** `CreateProduct`: admins only; any insert failure is Internal. */
  function CreateProduct(db: Db, caller: Option<XContext.UserInfo>, req: CreateProductRequest, failing: set<Step>): (r: (Result<int, Code>, Db))
    ensures Identity.ValidAdmin(caller).Err? ==> r == (Err(PermissionDenied), db)
    ensures r.0.Err? ==> r.1 == db && r.0.error in {PermissionDenied, Internal}
    ensures Identity.ValidAdmin(caller).Ok? ==> (r.0 == Err(Internal) <==> ProductInsert in failing)
    ensures r.0.Ok? ==>
      && r.0.value == db.products.nextId
      && r.1.purchases == db.purchases
      && r.1.products.rows == db.products.rows
           + [Product(r.0.value, req.name, req.ptype, req.description, req.imageUrls, caller.value.userId, req.price)]
  {
    match Identity.ValidAdmin(caller)
    case Err(e) => (Err(e), db)
    case Ok(user) =>
      var data := Product(0, req.name, req.ptype, req.description, req.imageUrls, user.userId, req.price);
      var (res, products) := ProductRepo.Create(db.products, data, ProductInsert in failing);
      if res.Err? then (Err(Internal), db) else (Ok(res.value), db.(products := products))
  }

  /** `DeleteProductByID`: admins only; a missing id is NotFound, any other failure Internal. */
  function DeleteProductById(db: Db, caller: Option<XContext.UserInfo>, id: int, failing: set<Step>): (r: (Outcome<Code>, Db))
    ensures Identity.ValidAdmin(caller).Err? ==> r == (Fail(PermissionDenied), db)
    ensures r.0.Fail? ==> r.1 == db && r.0.error in {PermissionDenied, NotFound, Internal}
    ensures Identity.ValidAdmin(caller).Ok? ==>
      && (r.0 == Fail(Internal) <==> ProductDelete in failing)
      && (r.0 == Fail(NotFound) <==> ProductDelete !in failing && forall p :: p in db.products.rows ==> p.id != id)
    ensures r.0.Pass? ==>
      && (forall p :: p in r.1.products.rows <==> p in db.products.rows && p.id != id)
      && r.1.purchases == db.purchases
  {
    match Identity.ValidAdmin(caller)
    case Err(e) => (Fail(e), db)
    case Ok(_) =>
      var (o, products) := ProductRepo.DeleteById(db.products, id, ProductDelete in failing);
      if o == Fail(ErrNoRows) then (Fail(NotFound), db)
      else if o.Fail? then (Fail(Internal), db)
      else (Pass, db.(products := products))
  }

  /** `DeleteProductByIDs`: admins only; every failure, none removed included, is Internal. */
  function DeleteProductByIds(db: Db, caller: Option<XContext.UserInfo>, ids: seq<int>, failing: set<Step>): (r: (Outcome<Code>, Db))
    ensures Identity.ValidAdmin(caller).Err? ==> r == (Fail(PermissionDenied), db)
    ensures r.0.Fail? ==> r.1 == db && r.0.error in {PermissionDenied, Internal}
    ensures Identity.ValidAdmin(caller).Ok? ==>
      (r.0 == Fail(Internal) <==> ProductDelete in failing || forall p :: p in db.products.rows ==> p.id !in ids)
    ensures r.0.Pass? ==>
      && (forall p :: p in r.1.products.rows <==> p in db.products.rows && p.id !in ids)
      && r.1.purchases == db.purchases
  {
    match Identity.ValidAdmin(caller)
    case Err(e) => (Fail(e), db)
    case Ok(_) =>
      var (o, products) := ProductRepo.DeleteByIds(db.products, ids, ProductDelete in failing);
      if o.Fail? then (Fail(Internal), db) else (Pass, db.(products := products))
  }

  /** What the listing and the lookup show of a product. */
  datatype ProductView = ProductView(name: string, ptype: string, imageUrls: seq<string>, description: string, price: real)

  function View(p: Product): ProductView {
    ProductView(p.name, p.ptype, p.imageUrls, p.description, p.price)
  }

  function Views(ps: seq<Product>): (r: seq<ProductView>)
    ensures |r| == |ps|
    ensures forall i :: 0 <= i < |ps| ==> r[i] == View(ps[i])
  {
    if ps == [] then [] else [View(ps[0])] + Views(ps[1..])
  }

  /**
   * `ListProduct`: one page of products and the size of the whole table.
   * There is no permission check; any failure is Internal.
   */
  function ListProduct(db: Db, offset: int, limit: int, failing: set<Step>): (r: Result<(seq<ProductView>, int), Code>)
    ensures r.Err? ==> r.error == Internal
    ensures r.Err? <==> ProductList in failing || ProductCount in failing || offset < 0 || limit < 0
    ensures r.Ok? ==> r.value.1 == |db.products.rows| && |r.value.0| <= limit
    ensures r.Ok? ==> |r.value.0| == ProductRepo.Min(limit, if offset <= |db.products.rows| then |db.products.rows| - offset else 0)
    ensures r.Ok? ==> forall i :: 0 <= i < |r.value.0| ==>
      offset + i < |db.products.rows| && r.value.0[i] == View(db.products.rows[offset + i])
  {
    match ProductRepo.List(db.products, offset, limit, ProductList in failing)
    case Err(_) => Err(Internal)
    case Ok(ps) =>
      match ProductRepo.Count(db.products, ProductCount in failing)
      case Err(_) => Err(Internal)
      case Ok(n) => Ok((Views(ps), n))
  }

  /** Two adjacent pages together are the page that spans both. */
  lemma ListProductPagesJoin(db: Db, offset: int, a: int, b: int, failing: set<Step>)
    requires ProductList !in failing && ProductCount !in failing
    requires 0 <= offset && 0 <= a && 0 <= b
    ensures ListProduct(db, offset, a + b, failing).value.0
         == ListProduct(db, offset, a, failing).value.0 + ListProduct(db, offset + a, b, failing).value.0
  {
    var whole := ListProduct(db, offset, a + b, failing).value.0;
    var first := ListProduct(db, offset, a, failing).value.0;
    var second := ListProduct(db, offset + a, b, failing).value.0;
    assert |whole| == |first| + |second|;
    forall i | 0 <= i < |whole|
      ensures whole[i] == (first + second)[i]
    {
      if i >= |first| {
        assert second[i - |first|] == View(db.products.rows[offset + a + (i - |first|)]);
      }
    }
  }

  /** A page starting at 0 as long as the table lists every product, in table order. */
  lemma ListProductWholeTable(db: Db, failing: set<Step>)
    requires ProductList !in failing && ProductCount !in failing
    ensures ListProduct(db, 0, |db.products.rows|, failing) == Ok((Views(db.products.rows), |db.products.rows|))
  {
    var page := ListProduct(db, 0, |db.products.rows|, failing).value.0;
    assert forall i :: 0 <= i < |page| ==> page[i] == Views(db.products.rows)[i];
    assert page == Views(db.products.rows);
  }

  /**
   * `RetrieveProductByID` as written: the not-found branch tests for the
   * pgx driver's ErrNoRows, but the repository runs on `database/sql` and
   * reports that package's ErrNoRows, so the branch never fires and a
   * missing product is Internal.
   */
  function RetrieveProductById(db: Db, id: int, failing: set<Step>): (r: Result<ProductView, Code>)
    ensures r.Err? ==> r.error == Internal
    ensures r.Err? <==> ProductLookup in failing || forall p :: p in db.products.rows ==> p.id != id
    ensures r.Ok? ==> exists p :: p in db.products.rows && p.id == id && r.value == View(p)
  {
    match ProductRepo.RetrieveById(db.products, id, ProductLookup in failing)
    case Err(_) => Err(Internal)
    case Ok(p) => Ok(View(p))
  }

  /** A product that does not exist is reported as Internal by the lookup as written. */
  lemma MissingProductIsInternal()
    ensures RetrieveProductById(Db(ProductRepo.Table([], 1), []), 7, {}) == Err(Internal)
  {
  }

  /** `RetrieveProductByID` with the not-found branch matching the error the repository returns. */
  function RetrieveProductByIdCorrected(db: Db, id: int, failing: set<Step>): (r: Result<ProductView, Code>)
    ensures r.Err? ==> r.error in {NotFound, Internal}
    ensures r == Err(NotFound) <==> ProductLookup !in failing && forall p :: p in db.products.rows ==> p.id != id
    ensures r == Err(Internal) <==> ProductLookup in failing
    ensures r.Ok? ==> exists p :: p in db.products.rows && p.id == id && r.value == View(p)
  {
    match ProductRepo.RetrieveById(db.products, id, ProductLookup in failing)
    case Err(ErrNoRows) => Err(NotFound)
    case Err(_) => Err(Internal)
    case Ok(p) => Ok(View(p))
  }

  /** Lookup after create: the corrected lookup finds a freshly created product. */
  lemma CreateThenRetrieve(db: Db, caller: Option<XContext.UserInfo>, req: CreateProductRequest, failing: set<Step>)
    requires forall p :: p in db.products.rows ==> p.id != db.products.nextId
    requires CreateProduct(db, caller, req, failing).0.Ok?
    ensures var (id, db') := (CreateProduct(db, caller, req, failing).0.value, CreateProduct(db, caller, req, failing).1);
      RetrieveProductByIdCorrected(db', id, {}) == Ok(ProductView(req.name, req.ptype, req.imageUrls, req.description, req.price))
  {
    var db' := CreateProduct(db, caller, req, failing).1;
    var row := db'.products.rows[|db'.products.rows| - 1];
    var keyOf := (p: Product) => p.id == db.products.nextId;
    assert db'.products.rows == db.products.rows + [row];
    Rows.FirstAppend(db.products.rows, row, keyOf);
  }

  datatype UpdateProductRequest = UpdateProductRequest(
    id: int, name: string, ptype: string, description: string, imageUrls: seq<string>)

  /**
   * `UpdateProductByID`: admins only. Name, type and description are sent
   * as non-NULL values and so always replace the stored ones; the price is
   * never sent and is kept; the image list is not part of the statement.
   */
  function UpdateProductById(db: Db, caller: Option<XContext.UserInfo>, req: UpdateProductRequest, failing: set<Step>): (r: (Outcome<Code>, Db))
    ensures Identity.ValidAdmin(caller).Err? ==> r == (Fail(PermissionDenied), db)
    ensures r.0.Fail? ==> r.1 == db && r.0.error in {PermissionDenied, NotFound, Internal}
    ensures Identity.ValidAdmin(caller).Ok? ==>
      && (r.0 == Fail(Internal) <==> ProductUpdate in failing)
      && (r.0 == Fail(NotFound) <==> ProductUpdate !in failing && forall p :: p in db.products.rows ==> p.id != req.id)
    ensures r.0.Pass? ==>
      && r.1.purchases == db.purchases
      && |r.1.products.rows| == |db.products.rows|
      && forall i :: 0 <= i < |db.products.rows| ==>
           var (old_, new_) := (db.products.rows[i], r.1.products.rows[i]);
           if old_.id == req.id
           then new_ == old_.(name := req.name, ptype := req.ptype, description := req.description)
           else new_ == old_
  {
    match Identity.ValidAdmin(caller)
    case Err(e) => (Fail(e), db)
    case Ok(_) =>
      var patch := ProductPatch(Some(req.name), Some(req.ptype), Some(req.description), None);
      var (o, products) := ProductRepo.UpdateById(db.products, req.id, patch, ProductUpdate in failing);
      if o == Fail(ErrNoRows) then (Fail(NotFound), db)
      else if o.Fail? then (Fail(Internal), db)
      else (Pass, db.(products := products))
  }

  /** The coupon service's answer to an eligibility check, as the purchase flow reads it. */
  datatype CouponAnswer = CouponAnswer(canUse: bool, discountType: DiscountType, value: real)

  /** What the coupon service answers to the two calls a purchase may make. */
  datatype Remote = Remote(check: Result<CouponAnswer, Code>, apply: Outcome<Code>)

  /** A call made to the coupon service. */
  datatype RemoteCall = CheckCall(code: string, userId: int) | ApplyCall(code: string)

  datatype PurchaseRequest = PurchaseRequest(productId: int, coupon: Option<string>)

  /** The answer, the database afterwards, and the remote calls made, in order. */
  datatype Purchase = Purchase(outcome: Outcome<Code>, db: Db, calls: seq<RemoteCall>)

  /**
   * The amount a coupon brings the price to: a percentage of the price, or
   * the coupon's value in place of the price; any other kind leaves the
   * price as it is.
   */
  function DiscountTotal(price: real, answer: CouponAnswer): (d: real)
    ensures answer.discountType == Percent && 0.0 <= answer.value <= 100.0 && price >= 0.0 ==> 0.0 <= d <= price
    ensures answer.discountType == Percent && answer.value == 100.0 ==> d == price
    ensures answer.discountType == Percent ==> d * 100.0 == price * answer.value
    ensures answer.discountType == FixedValue ==> d == answer.value
    ensures answer.discountType.OtherDiscount? ==> d == price
  {
    match answer.discountType
    case Percent =>
      var d := price * answer.value / 100.0;
      if 0.0 <= answer.value <= 100.0 && price >= 0.0 then
        PercentWithinPrice(price, answer.value, d);
        d
      else d
    case FixedValue => answer.value
    case OtherDiscount(_) => price
  }

  /** A percentage between 0 and 100 of a non-negative price lies between 0 and the price. */
  lemma PercentWithinPrice(price: real, percent: real, d: real)
    requires 0.0 <= percent <= 100.0 && price >= 0.0
    requires d == price * percent / 100.0
    ensures 0.0 <= d <= price
  {
    MulNonneg(price, percent);
    MulNonneg(price, 100.0 - percent);
    assert price * (100.0 - percent) == price * 100.0 - price * percent;
    assert d * 100.0 == price * percent;
  }

  /**
   * The percent amount is the price's share: any amount that is `value`
   * hundredths of the price is the one `DiscountTotal` gives.
   */
  lemma {:induction false} PercentIsShare(price: real, answer: CouponAnswer, x: real)
    requires answer.discountType == Percent
    requires x * 100.0 == price * answer.value
    ensures DiscountTotal(price, answer) == x
  {
    var d := DiscountTotal(price, answer);
    assert d * 100.0 == x * 100.0;
    assert (d - x) * 100.0 == 0.0;
  }

  lemma MulNonneg(a: real, b: real)
    requires a >= 0.0 && b >= 0.0
    ensures a * b >= 0.0
  {
  }

  function Max(a: real, b: real): real { if a >= b then a else b }

  /** The purchase row: listed price, discounted amount, the amount clamped at zero, and the coupon. */
  function Record(p: Product, userId: int, discount: real, coupon: Option<string>): (rec: PurchasedProduct)
    ensures rec.productId == p.id && rec.userId == userId && rec.price == p.price && rec.coupon == coupon
    ensures rec.discount == discount
    ensures rec.total >= 0.0 && rec.total >= rec.discount
    ensures rec.discount >= 0.0 ==> rec.total == rec.discount
    ensures rec.discount < 0.0 ==> rec.total == 0.0
  {
    PurchasedProduct(p.id, userId, p.price, discount, Max(0.0, discount), coupon)
  }

  /** The body run inside the transaction: the record, then the redemption when a coupon was given. */
  function PurchaseBody(rec: PurchasedProduct, coupon: Option<string>, remote: Remote, failing: set<Step>, d: Db): (r: (Db, Option<Code>))
    ensures PurchaseInsert in failing ==> r.1 == Some(Unknown)
    ensures PurchaseInsert !in failing ==> r.0 == d.(purchases := d.purchases + [rec])
    ensures r.1.None? <==> PurchaseInsert !in failing && (coupon.None? || remote.apply.Pass?)
  {
    if PurchaseInsert in failing then (d, Some(Unknown))
    else
      var d' := d.(purchases := d.purchases + [rec]);
      if coupon.Some? && remote.apply.Fail? then (d', Some(MapRemote(remote.apply.error)))
      else (d', None)
  }

  /** Run the purchase transaction once the discounted amount is known. */
  function Commit(db: Db, user: XContext.UserInfo, p: Product, discount: real, req: PurchaseRequest,
                  remote: Remote, env: Tx.Env, failing: set<Step>, calls: seq<RemoteCall>): (r: Purchase)
    ensures r.outcome.Fail? ==> r.db == db
    ensures r.outcome.Pass? ==> r.db == db.(purchases := db.purchases + [Record(p, user.userId, discount, req.coupon)])
    ensures r.outcome.Pass? <==> env.beginOk && PurchaseInsert !in failing && (req.coupon.None? || remote.apply.Pass?) && env.commitOk
    ensures r.calls == calls
      + (if env.beginOk && PurchaseInsert !in failing && req.coupon.Some? then [ApplyCall(req.coupon.value)] else [])
  {
    var rec := Record(p, user.userId, discount, req.coupon);
    var tx := Tx.Transaction(db, env, (d: Db) => PurchaseBody(rec, req.coupon, remote, failing, d));
    var applied := tx.ran && PurchaseInsert !in failing && req.coupon.Some?;
    var calls' := calls + (if applied then [ApplyCall(req.coupon.value)] else []);
    if tx.err.Some? then Purchase(Fail(Tx.ServiceError(tx.err.value)), db, calls')
    else Purchase(Pass, tx.state, calls')
  }

  /**
   * `PurchaseProduct`: identify the caller, look the product up, ask the
   * coupon service whether the coupon may be used, then in one transaction
   * write the purchase record and redeem the coupon.
   */
  function PurchaseProduct(db: Db, caller: Option<XContext.UserInfo>, req: PurchaseRequest,
                           remote: Remote, env: Tx.Env, failing: set<Step>): (r: Purchase)
    ensures caller.None? ==> r == Purchase(Fail(PermissionDenied), db, [])
    ensures r.outcome.Fail? ==> r.db == db
    ensures caller.Some? && ProductLookup in failing ==> r == Purchase(Fail(Internal), db, [])
    ensures caller.Some? && ProductLookup !in failing && (forall p :: p in db.products.rows ==> p.id != req.productId)
      ==> r == Purchase(Fail(NotFound), db, [])
    ensures r.calls != [] ==> caller.Some? && req.coupon.Some? && r.calls[0] == CheckCall(req.coupon.value, caller.value.userId)
    ensures caller.Some? && ProductRepo.RetrieveById(db.products, req.productId, ProductLookup in failing).Ok?
            && req.coupon.Some? && remote.check.Err? ==>
      r == Purchase(Fail(MapRemote(remote.check.error)), db, [CheckCall(req.coupon.value, caller.value.userId)])
    ensures caller.Some? && ProductRepo.RetrieveById(db.products, req.productId, ProductLookup in failing).Ok?
            && req.coupon.Some? && remote.check.Ok? && !remote.check.value.canUse ==>
      r == Purchase(Fail(FailedPrecondition), db, [CheckCall(req.coupon.value, caller.value.userId)])
    ensures ApplyCall(req.coupon.GetOr("")) in r.calls ==>
      && req.coupon.Some? && remote.check.Ok? && remote.check.value.canUse
      && env.beginOk && PurchaseInsert !in failing
    ensures r.outcome.Pass? ==>
      && caller.Some?
      && (req.coupon.Some? ==> remote.check.Ok? && remote.check.value.canUse && remote.apply.Pass?
                               && r.calls == [CheckCall(req.coupon.value, caller.value.userId), ApplyCall(req.coupon.value)])
      && (req.coupon.None? ==> r.calls == [])
      && exists p :: p in db.products.rows && p.id == req.productId
           && r.db == db.(purchases := db.purchases + [Record(p, caller.value.userId,
                 if req.coupon.Some? then DiscountTotal(p.price, remote.check.value) else p.price, req.coupon)])
  {
    match caller
    case None => Purchase(Fail(PermissionDenied), db, [])
    case Some(user) =>
      match ProductRepo.RetrieveById(db.products, req.productId, ProductLookup in failing)
      case Err(ErrNoRows) => Purchase(Fail(NotFound), db, [])
      case Err(_) => Purchase(Fail(Internal), db, [])
      case Ok(p) =>
        if req.coupon.None? then Commit(db, user, p, p.price, req, remote, env, failing, [])
        else
          var calls := [CheckCall(req.coupon.value, user.userId)];
          match remote.check
          case Err(c) => Purchase(Fail(MapRemote(c)), db, calls)
          case Ok(answer) =>
            if !answer.canUse then Purchase(Fail(FailedPrecondition), db, calls)
            else Commit(db, user, p, DiscountTotal(p.price, answer), req, remote, env, failing, calls)
  }

  /**
   * A failed record insert returns the plain error (reported as Unknown)
   * and the coupon is never redeemed.
   */
  lemma InsertFailureSkipsApply(db: Db, user: XContext.UserInfo, req: PurchaseRequest, remote: Remote, env: Tx.Env, failing: set<Step>)
    requires PurchaseInsert in failing && env.beginOk
    requires ProductRepo.RetrieveById(db.products, req.productId, ProductLookup in failing).Ok?
    ensures var r := PurchaseProduct(db, Some(user), req, remote, env, failing);
      && r.outcome.Fail? && r.db == db
      && (forall c :: c in r.calls ==> !c.ApplyCall?)
      && (req.coupon.None? || (remote.check.Ok? && remote.check.value.canUse) ==> r.outcome == Fail(Unknown))
  {
  }

  /**
   * A failed redemption is mapped like the eligibility call's errors and
   * rolls the purchase record back.
   */
  lemma ApplyFailureRollsBack(db: Db, user: XContext.UserInfo, req: PurchaseRequest, remote: Remote, env: Tx.Env, failing: set<Step>)
    requires req.coupon.Some? && remote.check.Ok? && remote.check.value.canUse && remote.apply.Fail?
    requires env.beginOk && PurchaseInsert !in failing
    requires ProductRepo.RetrieveById(db.products, req.productId, ProductLookup in failing).Ok?
    ensures var r := PurchaseProduct(db, Some(user), req, remote, env, failing);
      && r.outcome == Fail(MapRemote(remote.apply.error))
      && r.db == db
      && r.calls == [CheckCall(req.coupon.value, user.userId), ApplyCall(req.coupon.value)]
  {
  }

  /**
   * The redemption is a remote call made before the local commit: when the
   * commit then fails, the purchase is rolled back but the coupon service
   * has already been asked to redeem the coupon.
   */
  lemma CommitFailureAfterRedemption(db: Db, user: XContext.UserInfo, req: PurchaseRequest, remote: Remote, env: Tx.Env, failing: set<Step>)
    requires req.coupon.Some? && remote.check.Ok? && remote.check.value.canUse && remote.apply.Pass?
    requires env.beginOk && !env.commitOk && PurchaseInsert !in failing
    requires ProductRepo.RetrieveById(db.products, req.productId, ProductLookup in failing).Ok?
    ensures var r := PurchaseProduct(db, Some(user), req, remote, env, failing);
      && r.outcome == Fail(Unknown)
      && r.db == db
      && ApplyCall(req.coupon.value) in r.calls
  {
    var r := PurchaseProduct(db, Some(user), req, remote, env, failing);
    assert r.calls == [CheckCall(req.coupon.value, user.userId), ApplyCall(req.coupon.value)];
  }

  /**
   * Without a coupon no remote call is made, the purchase is priced at the
   * listed price, and it succeeds exactly when the transaction's begin,
   * insert and commit do.
   */
  lemma PurchaseWithoutCoupon(db: Db, user: XContext.UserInfo, req: PurchaseRequest, remote: Remote, env: Tx.Env,
                              failing: set<Step>, p: Product)
    requires req.coupon.None?
    requires ProductRepo.RetrieveById(db.products, req.productId, ProductLookup in failing) == Ok(p)
    ensures var r := PurchaseProduct(db, Some(user), req, remote, env, failing);
      && (r.outcome.Pass? <==> env.beginOk && PurchaseInsert !in failing && env.commitOk)
      && r.calls == []
      && (r.outcome.Pass? ==> r.db.purchases == db.purchases + [Record(p, user.userId, p.price, None)])
  {
  }

  /** A fixed-value coupon replaces the price: the amount does not depend on the price at all. */
  lemma FixedValueReplacesPrice(p1: real, p2: real, answer: CouponAnswer)
    requires answer.discountType == FixedValue
    ensures DiscountTotal(p1, answer) == DiscountTotal(p2, answer) == answer.value
  {
  }

  /** An eligible coupon's answer is applied to the listed price of the purchased product. */
  lemma PurchaseWithCoupon(db: Db, user: XContext.UserInfo, req: PurchaseRequest, remote: Remote, env: Tx.Env, failing: set<Step>, p: Product)
    requires req.coupon.Some? && remote.check.Ok? && remote.check.value.canUse && remote.apply.Pass?
    requires env.beginOk && env.commitOk && PurchaseInsert !in failing
    requires ProductRepo.RetrieveById(db.products, req.productId, ProductLookup in failing) == Ok(p)
    ensures var r := PurchaseProduct(db, Some(user), req, remote, env, failing);
      var d := DiscountTotal(p.price, remote.check.value);
      && r.outcome.Pass?
      && r.db.purchases == db.purchases + [PurchasedProduct(p.id, user.userId, p.price, d, Max(0.0, d), req.coupon)]
  {
  }
}

=== FILE: rows.dfy ===
/**
 * Tables as sequences of rows in insertion order. A single-row query
 * (`QueryRow ... Scan`) yields the first matching row; `DELETE` and `UPDATE`
 * report how many rows they touched.
 */
module Rows {
  import opened Wrappers

  /** The rows that satisfy `keep`, in their original order (`SELECT ... WHERE`). */
  function Filter<T(!new)>(s: seq<T>, keep: T -> bool): (r: seq<T>)
    ensures |r| <= |s|
    ensures forall x :: x in r <==> x in s && keep(x)
    ensures |r| == |s| <==> forall x :: x in s ==> keep(x)
  {
    if s == [] then []
    else if keep(s[0]) then [s[0]] + Filter(s[1..], keep)
    else
      var rest := Filter(s[1..], keep);
      assert s[0] in s;
      rest
  }

  /** The number of rows that satisfy `p` (rows affected by a WHERE `p`). */
  function Count<T(!new)>(s: seq<T>, p: T -> bool): (n: nat)
    ensures n <= |s|
    ensures n == 0 <==> forall x :: x in s ==> !p(x)
  {
    if s == [] then 0
    else
      var rest := Count(s[1..], p);
      assert forall x :: x in s[1..] ==> x in s;
      assert s == [s[0]] + s[1..];
      (if p(s[0]) then 1 else 0) + rest
  }

  /** The first row satisfying `p`, if any. */
  function First<T(!new)>(s: seq<T>, p: T -> bool): (r: Option<T>)
    ensures r.Some? ==> r.value in s && p(r.value)
    ensures r.None? <==> forall x :: x in s ==> !p(x)
  {
    if s == [] then None
    else if p(s[0]) then Some(s[0])
    else
      assert s == [s[0]] + s[1..];
      First(s[1..], p)
  }

  /** Rewrite with `f` every row that satisfies `p`; the others stay as they are. */
  function UpdateWhere<T(!new)>(s: seq<T>, p: T -> bool, f: T -> T): (r: seq<T>)
    ensures |r| == |s|
    ensures forall i :: 0 <= i < |s| ==> r[i] == (if p(s[i]) then f(s[i]) else s[i])
  {
    if s == [] then []
    else [if p(s[0]) then f(s[0]) else s[0]] + UpdateWhere(s[1..], p, f)
  }

  /** Keeping the rows that do not match `p` removes exactly `Count(s, p)` rows. */
  lemma {:induction false} FilterCount<T(!new)>(s: seq<T>, keep: T -> bool, p: T -> bool)
    requires forall x :: keep(x) <==> !p(x)
    ensures |Filter(s, keep)| + Count(s, p) == |s|
  {
    if s != [] {
      FilterCount(s[1..], keep, p);
    }
  }

  /** A row appended at the end does not hide an earlier match from `First`. */
  lemma {:induction false} FirstAppend<T(!new)>(s: seq<T>, x: T, p: T -> bool)
    ensures p(x) ==> First(s + [x], p).Some?
    ensures First(s, p).Some? ==> First(s + [x], p) == First(s, p)
    ensures !p(x) ==> First(s + [x], p) == First(s, p)
  {
    if s != [] {
      assert (s + [x])[1..] == s[1..] + [x];
      FirstAppend(s[1..], x, p);
    } else {
      assert s + [x] == [x];
    }
  }

  /** Filtering commutes with appending a row at the end. */
  lemma {:induction false} FilterAppend<T(!new)>(s: seq<T>, x: T, keep: T -> bool)
    ensures Filter(s + [x], keep) == Filter(s, keep) + (if keep(x) then [x] else [])
  {
    if s == [] {
      assert s + [x] == [x];
    } else {
      assert (s + [x])[1..] == s[1..] + [x];
      FilterAppend(s[1..], x, keep);
    }
  }
}

=== FILE: status.dfy ===
/** Error classification used across components. */
module Status {

  /**
   * The gRPC status codes the services return. `Unknown` is what the
   * transport reports for a plain (non-status) Go error; `Panic` is not a
   * status at all: the handler dereferences a nil pointer and never replies.
   */
  datatype Code =
    | NotFound
    | FailedPrecondition
    | PermissionDenied
    | InvalidArgument
    | AlreadyExists
    | Internal
    | Unknown
    | Panic

  /**
   * The errors a repository call can return: `sql.ErrNoRows` (no row
   * matched a single-row query, or zero rows affected) or any other
   * driver error (connection loss, constraint violation, ...).
   */
  datatype DbError = ErrNoRows | DriverError

  /**
   * How the product service translates an error received from the remote
   * coupon service: NotFound and FailedPrecondition pass through, every
   * other code (including the Unknown of a plain error) becomes Internal.
   */
  function MapRemote(c: Code): (r: Code)
    ensures r in {NotFound, FailedPrecondition, Internal}
    ensures r == c <==> c in {NotFound, FailedPrecondition, Internal}
  {
    match c
    case NotFound => NotFound
    case FailedPrecondition => FailedPrecondition
    case _ => Internal
  }
}

=== FILE: string_util.dfy ===
/** String helpers. */
module StringUtil {

  /** The first non-empty argument, or "" when there is none. */
  function Coalesce(src: seq<string>): (r: string)
    ensures r == "" || r in src
    ensures r == "" <==> forall i :: 0 <= i < |src| ==> src[i] == ""
    ensures r != "" ==> exists i :: 0 <= i < |src| && src[i] == r && forall j :: 0 <= j < i ==> src[j] == ""
  {
    if src == [] then ""
    else if src[0] != "" then src[0]
    else
      assert forall i :: 1 <= i < |src| ==> src[i] == src[1..][i - 1];
      Coalesce(src[1..])
  }

  /** With no arguments the result is the empty string. */
  lemma CoalesceEmpty()
    ensures Coalesce([]) == ""
  {
  }

  /** Empty arguments in front do not change the answer. */
  lemma {:induction false} CoalesceSkipsEmpty(pre: seq<string>, rest: seq<string>)
    requires forall i :: 0 <= i < |pre| ==> pre[i] == ""
    ensures Coalesce(pre + rest) == Coalesce(rest)
  {
    if pre != [] {
      var all := pre + rest;
      assert all[0] == pre[0] == "";
      assert all[1..] == pre[1..] + rest;
      CoalesceSkipsEmpty(pre[1..], rest);
    } else {
      assert pre + rest == rest;
    }
  }

  /** The decimal digit character for `d`. */
  function DigitChar(d: nat): char
    requires d < 10
  {
    (d + '0' as int) as char
  }

  /** The number a decimal digit character stands for. */
  function DigitValue(c: char): int {
    c as int - '0' as int
  }
}

=== FILE: tx.dfy ===
/**
 * The commit/rollback combinator: begin a transaction, run `fn` against
 * it, commit on success; the deferred rollback discards `fn`'s writes on
 * every other path.
 */
module Tx {
  import opened Wrappers
  import opened Status

  /** What the database answers to begin and to commit. */
  datatype Env = Env(beginOk: bool, commitOk: bool)

  /** "unable to create / execute / commit transaction: ..." */
  datatype TxError<E> = BeginFailed | ExecFailed(cause: E) | CommitFailed

  /**
   * The state after the transaction, its error (None is success), whether
   * `fn` was called and whether a commit was attempted.
   */
  datatype TxResult<S, E> = TxResult(state: S, err: Option<TxError<E>>, ran: bool, committing: bool)

  function Transaction<S, E>(s: S, env: Env, fn: S -> (S, Option<E>)): (r: TxResult<S, E>)
    ensures !env.beginOk ==> r.err == Some(BeginFailed) && !r.ran && !r.committing
    ensures env.beginOk && fn(s).1.Some? ==> r.err == Some(ExecFailed(fn(s).1.value)) && r.ran && !r.committing
    ensures env.beginOk && fn(s).1.None? ==> r.ran && r.committing && (r.err.Some? ==> r.err == Some(CommitFailed))
    ensures r.err.None? <==> env.beginOk && fn(s).1.None? && env.commitOk
    ensures r.state == (if r.err.None? then fn(s).0 else s)
  {
    if !env.beginOk then TxResult(s, Some(BeginFailed), false, false)
    else
      var (s', e) := fn(s);
      if e.Some? then TxResult(s, Some(ExecFailed(e.value)), true, false)
      else if !env.commitOk then TxResult(s, Some(CommitFailed), true, true)
      else TxResult(s', None, true, true)
  }

  /** When begin fails the body is never run: its result cannot matter. */
  lemma BeginFailureIgnoresBody<S, E>(s: S, env: Env, f: S -> (S, Option<E>), g: S -> (S, Option<E>))
    requires !env.beginOk
    ensures Transaction(s, env, f) == Transaction(s, env, g)
  {
  }

  /**
   * The services' `database.Transaction` hands back `fn`'s own error
   * unchanged; a failed begin or commit is a plain error, which the
   * transport reports as Unknown.
   */
  function ServiceError(e: TxError<Code>): (c: Code)
    ensures e.ExecFailed? ==> c == e.cause
    ensures !e.ExecFailed? ==> c == Unknown
  {
    match e
    case ExecFailed(c) => c
    case _ => Unknown
  }
}

=== FILE: used_coupon_repo.dfy ===
/** The used-coupon log and its join with the coupons table. */
module UsedCouponRepo {
  import opened Wrappers
  import opened Status
  import opened CouponEntity

  type Table = seq<UsedCoupon>

  /** `Create`: append one record, with no uniqueness check. */
  function Create(t: Table, data: UsedCoupon, fails: bool): (r: (Outcome<DbError>, Table))
    ensures fails ==> r == (Fail(DriverError), t)
    ensures !fails ==> r.0 == Pass && |r.1| == |t| + 1 && r.1[..|t|] == t && r.1[|t|] == data
  {
    if fails then (Fail(DriverError), t) else (Pass, t + [data])
  }

  /** The number of records of `couponId` by `userId` in the log. */
  function Uses(t: Table, couponId: int, userId: int): nat {
    if t == [] then 0
    else
      var last := if t[|t| - 1].couponId == couponId && t[|t| - 1].userId == userId then 1 else 0;
      Uses(t[..|t| - 1], couponId, userId) + last
  }

  /** Two creates of the same record leave two more records of it in the log. */
  lemma CreateTwice(t: Table, data: UsedCoupon)
    ensures var t2 := Create(Create(t, data, false).1, data, false).1;
      Uses(t2, data.couponId, data.userId) == Uses(t, data.couponId, data.userId) + 2
  {
    var t1 := t + [data];
    var t2 := t1 + [data];
    assert t2[..|t2| - 1] == t1;
    assert t1[..|t1| - 1] == t;
  }

  /** The coupons whose id is `couponId` (an inner join's matching side). */
  function MatchingCoupons(coupons: seq<Coupon>, couponId: int): (r: seq<Coupon>)
    ensures forall c :: c in r <==> c in coupons && c.id == couponId
  {
    if coupons == [] then []
    else
      assert coupons == [coupons[0]] + coupons[1..];
      (if coupons[0].id == couponId then [coupons[0]] else []) + MatchingCoupons(coupons[1..], couponId)
  }

  function PairWith(u: UsedCoupon, cs: seq<Coupon>): (r: seq<(UsedCoupon, Coupon)>)
    ensures forall p :: p in r <==> p.0 == u && p.1 in cs
  {
    if cs == [] then []
    else
      assert cs == [cs[0]] + cs[1..];
      [(u, cs[0])] + PairWith(u, cs[1..])
  }

  /**
   * The join of the user's records with their coupons, in log order: every
   * pair is one of the user's records with the coupon whose id is the
   * record's coupon id, and every such pair appears.
   */
  function JoinByUser(t: Table, coupons: seq<Coupon>, userId: int): (r: seq<(UsedCoupon, Coupon)>)
    ensures forall p :: p in r <==> p.0 in t && p.0.userId == userId && p.1 in coupons && p.1.id == p.0.couponId
  {
    if t == [] then []
    else
      var u := t[0];
      var head := if u.userId == userId then PairWith(u, MatchingCoupons(coupons, u.couponId)) else [];
      assert t == [u] + t[1..];
      head + JoinByUser(t[1..], coupons, userId)
  }

  /**
   * `ListUsedCouponByUserID` as written: the coupon half of the SELECT list
   * is built from the used-coupon column names, so a joined row carries 12
   * columns while the scan offers 6 + 10 destinations. The first joined row
   * fails to scan; only an empty join comes back without an error.
   */
  function ListUsedCouponByUserIdAsWritten(t: Table, coupons: seq<Coupon>, userId: int, fails: bool): (r: Result<seq<(UsedCoupon, Coupon)>, DbError>)
    ensures r.Ok? ==> r.value == []
    ensures r.Err? <==> fails || exists u, c :: u in t && u.userId == userId && c in coupons && c.id == u.couponId
  {
    var joined := JoinByUser(t, coupons, userId);
    if fails then Err(DriverError)
    else if joined != [] then
      assert joined[0] in joined;
      Err(DriverError)
    else
      assert forall u, c :: u in t && u.userId == userId && c in coupons && c.id == u.couponId ==> (u, c) in joined;
      Ok([])
  }

  /** As written, a user with a redemption of an existing coupon can never list it: the listing fails. */
  lemma RedeemedListingFailsAsWritten(t: Table, coupons: seq<Coupon>, u: UsedCoupon, c: Coupon)
    requires u in t && c in coupons && c.id == u.couponId
    ensures ListUsedCouponByUserIdAsWritten(t, coupons, u.userId, false) == Err(DriverError)
    ensures ListUsedCouponByUserId(t, coupons, u.userId, false).Ok?
    ensures (u, c) in ListUsedCouponByUserId(t, coupons, u.userId, false).value
  {
    assert (u, c) in JoinByUser(t, coupons, u.userId);
  }

  /**
   * `ListUsedCouponByUserID` as evidently intended: the join above; a
   * record whose coupon row is gone has no partner and is left out.
   */
  function ListUsedCouponByUserId(t: Table, coupons: seq<Coupon>, userId: int, fails: bool): (r: Result<seq<(UsedCoupon, Coupon)>, DbError>)
    ensures fails <==> r.Err?
    ensures r.Ok? ==> forall p :: p in r.value <==> p.0 in t && p.0.userId == userId && p.1 in coupons && p.1.id == p.0.couponId
  {
    if fails then Err(DriverError) else Ok(JoinByUser(t, coupons, userId))
  }

  /** A record whose coupon no longer exists is not listed. */
  lemma OrphanOmitted(t: Table, coupons: seq<Coupon>, userId: int, u: UsedCoupon)
    requires forall c :: c in coupons ==> c.id != u.couponId
    ensures forall p :: p in JoinByUser(t, coupons, userId) ==> p.0 != u
  {
  }
}

=== FILE: user_cache.dfy ===
/**
 * The in-memory user cache: users by user name and by email (one map,
 * told apart by a key prefix), forgot-password attempt counters by email,
 * and issued reset tokens by "email|token".
 */
module UserCache {
  import opened Wrappers
  import opened UserEntity
  import Lru

  datatype State = State(
    users: Lru.Cache<string, User>,
    attempts: Lru.Cache<string, int>,
    resetTokens: Lru.Cache<string, bool>)

  function UserNameKey(userName: string): string { "userName|" + userName }
  function EmailKey(email: string): string { "email|" + email }
  function ResetKey(email: string, resetToken: string): string { email + "|" + resetToken }

  /** The two namespaces of the user map are disjoint: the prefixes differ in their first character. */
  lemma {:induction false} KeysNeverCollide(userName: string, email: string)
    ensures UserNameKey(userName) != EmailKey(email)
  {
    assert UserNameKey(userName)[0] == 'u';
    assert EmailKey(email)[0] == 'e';
  }

  function RetrieveByUserName(s: State, userName: string): (r: Result<User, Lru.CacheError>)
    ensures r.Ok? <==> UserNameKey(userName) in s.users
  {
    Lru.Get(s.users, UserNameKey(userName))
  }

  function StoreByUserName(s: State, userName: string, user: User): (r: (State, Outcome<Lru.CacheError>))
    ensures r.1.Pass? && r.0.attempts == s.attempts && r.0.resetTokens == s.resetTokens
  {
    var (users, o) := Lru.Add(s.users, UserNameKey(userName), user);
    (s.(users := users), o)
  }

  function RemoveByUserName(s: State, userName: string): (r: (State, Outcome<Lru.CacheError>))
    ensures r.1.Pass? <==> UserNameKey(userName) in s.users
    ensures r.1.Fail? ==> r.0 == s
  {
    var (users, o) := Lru.Remove(s.users, UserNameKey(userName));
    (s.(users := users), o)
  }

  function RetrieveByEmail(s: State, email: string): (r: Result<User, Lru.CacheError>)
    ensures r.Ok? <==> EmailKey(email) in s.users
  {
    Lru.Get(s.users, EmailKey(email))
  }

  function StoreByEmail(s: State, email: string, user: User): (r: (State, Outcome<Lru.CacheError>))
    ensures r.1.Pass? && r.0.attempts == s.attempts && r.0.resetTokens == s.resetTokens
  {
    var (users, o) := Lru.Add(s.users, EmailKey(email), user);
    (s.(users := users), o)
  }

  function RemoveByEmail(s: State, email: string): (r: (State, Outcome<Lru.CacheError>))
    ensures r.1.Pass? <==> EmailKey(email) in s.users
    ensures r.1.Fail? ==> r.0 == s
  {
    var (users, o) := Lru.Remove(s.users, EmailKey(email));
    (s.(users := users), o)
  }

  /** Store then retrieve gives the user back, by name and by email. */
  lemma StoreThenRetrieve(s: State, key: string, user: User)
    ensures RetrieveByUserName(StoreByUserName(s, key, user).0, key) == Ok(user)
    ensures RetrieveByEmail(StoreByEmail(s, key, user).0, key) == Ok(user)
  {
    Lru.GetAfterAdd(s.users, UserNameKey(key), user);
    Lru.GetAfterAdd(s.users, EmailKey(key), user);
  }

  /** Storing under one namespace never changes a lookup in the other. */
  lemma StoreKeepsOtherNamespace(s: State, userName: string, email: string, user: User)
    ensures RetrieveByEmail(StoreByUserName(s, userName, user).0, email) == RetrieveByEmail(s, email)
    ensures RetrieveByUserName(StoreByEmail(s, email, user).0, userName) == RetrieveByUserName(s, userName)
  {
    KeysNeverCollide(userName, email);
    Lru.OtherKeysUntouched(s.users, UserNameKey(userName), user, EmailKey(email));
    Lru.OtherKeysUntouched(s.users, EmailKey(email), user, UserNameKey(userName));
  }

  /** Removing an entry makes the next lookup fail. */
  lemma RemoveThenRetrieve(s: State, key: string)
    ensures RetrieveByUserName(RemoveByUserName(s, key).0, key).Err?
    ensures RetrieveByEmail(RemoveByEmail(s, key).0, key).Err?
  {
    Lru.GetAfterRemove(s.users, UserNameKey(key));
    Lru.GetAfterRemove(s.users, EmailKey(key));
  }

  /**
   * `IncrementForgotPassword` as written. The counter is a pointer held in
   * the map, so a stored counter is incremented in place; but a missing one
   * is allocated, incremented to 1 and never added to the map.
   */
  function IncrementForgotPassword(s: State, email: string): (r: (State, int))
    ensures email !in s.attempts ==> r == (s, 1)
    ensures email in s.attempts ==> r.1 == s.attempts[email] + 1 && r.0 == s.(attempts := s.attempts[email := r.1])
  {
    match Lru.Get(s.attempts, email)
    case Err(_) => (s, 1)
    case Ok(n) => (s.(attempts := s.attempts[email := n + 1]), n + 1)
  }

  /** With no counter stored, the count stays at 1 however often it is incremented. */
  lemma {:induction false} CounterNeverStored(s: State, email: string, k: nat)
    requires email !in s.attempts
    ensures Repeat(s, email, k + 1, false) == (s, 1)
  {
    if k > 0 {
      CounterNeverStored(s, email, k - 1);
    }
  }

  /** The counter with the missing case stored, so that every call counts. */
  function IncrementForgotPasswordCorrected(s: State, email: string): (r: (State, int))
    ensures r.1 == (if email in s.attempts then s.attempts[email] else 0) + 1
    ensures r.0 == s.(attempts := s.attempts[email := r.1])
  {
    match Lru.Get(s.attempts, email)
    case Err(_) => (s.(attempts := s.attempts[email := 1]), 1)
    case Ok(n) => (s.(attempts := s.attempts[email := n + 1]), n + 1)
  }

  /** `k` increments in a row, as written or corrected; the count the last one returned. */
  function Repeat(s: State, email: string, k: nat, corrected: bool): (State, int)
    decreases k
  {
    if k == 0 then (s, 0)
    else
      var s' := Repeat(s, email, k - 1, corrected).0;
      if corrected then IncrementForgotPasswordCorrected(s', email) else IncrementForgotPassword(s', email)
  }

  /** Corrected, the `k`-th request for an email with no counter returns `k`. */
  lemma {:induction false} CorrectedCountsEveryCall(s: State, email: string, k: nat)
    requires email !in s.attempts
    ensures Repeat(s, email, k, true).1 == k
    ensures k > 0 ==> email in Repeat(s, email, k, true).0.attempts && Repeat(s, email, k, true).0.attempts[email] == k
    ensures k == 0 ==> Repeat(s, email, k, true).0 == s
  {
    if k > 0 {
      CorrectedCountsEveryCall(s, email, k - 1);
    }
  }

  /** `StoreResetToken`: remember the token for that email. */
  function StoreResetToken(s: State, email: string, resetToken: string): (r: (State, Outcome<Lru.CacheError>))
    ensures r.1.Pass? && r.0.users == s.users && r.0.attempts == s.attempts
  {
    var (tokens, o) := Lru.Add(s.resetTokens, ResetKey(email, resetToken), true);
    (s.(resetTokens := tokens), o)
  }

  /** `IsExistResetToken`: Pass exactly when the token was stored (as true) for that email. */
  function IsExistResetToken(s: State, email: string, resetToken: string): (r: Outcome<string>)
    ensures r.Pass? <==> ResetKey(email, resetToken) in s.resetTokens && s.resetTokens[ResetKey(email, resetToken)]
  {
    match Lru.Get(s.resetTokens, ResetKey(email, resetToken))
    case Err(_) => Fail("value does not exists")
    case Ok(b) => if !b then Fail("reset token not exists") else Pass
  }

  /** `RemoveByResetToken`: forget the token; an error when it was not there. */
  function RemoveByResetToken(s: State, email: string, resetToken: string): (r: (State, Outcome<Lru.CacheError>))
    ensures r.1.Pass? <==> ResetKey(email, resetToken) in s.resetTokens
    ensures r.0.users == s.users && r.0.attempts == s.attempts
  {
    var (tokens, o) := Lru.Remove(s.resetTokens, ResetKey(email, resetToken));
    (s.(resetTokens := tokens), o)
  }

  /** A stored token is accepted until it is removed, and refused after. */
  lemma ResetTokenLifecycle(s: State, email: string, resetToken: string)
    ensures var s1 := StoreResetToken(s, email, resetToken).0;
      && IsExistResetToken(s1, email, resetToken).Pass?
      && RemoveByResetToken(s1, email, resetToken).1.Pass?
      && IsExistResetToken(RemoveByResetToken(s1, email, resetToken).0, email, resetToken).Fail?
  {
  }

  /**
   * The reset key joins email and token with a bare "|", so a token issued
   * for one email is also accepted for another whenever the joined strings
   * coincide: a token "c" stored for "a|b" passes as "b|c" for "a".
   */
  lemma ResetKeyAmbiguous(s: State)
    ensures IsExistResetToken(StoreResetToken(s, "a|b", "c").0, "a", "b|c").Pass?
  {
    assert ResetKey("a|b", "c") == ResetKey("a", "b|c");
  }
}

=== FILE: user_coupon_repo.dfy ===
/**
 * The per-user coupon grants table. `DeleteByCouponID` is unimplemented
 * (it panics) and no operation calls it, so it is not part of this module.
 */
module UserCouponRepo {
  import opened Wrappers
  import opened Status
  import opened CouponEntity
  import Rows

  type Table = seq<UserCoupon>

  predicate Matches(g: UserCoupon, couponId: int, userId: int) {
    g.couponId == couponId && g.userId == userId
  }

  /** `Create`: add exactly one grant row with the given fields. */
  function Create(t: Table, data: UserCoupon, fails: bool): (r: (Outcome<DbError>, Table))
    ensures fails ==> r == (Fail(DriverError), t)
    ensures !fails ==> r.0 == Pass && r.1 == t + [data]
  {
    if fails then (Fail(DriverError), t) else (Pass, t + [data])
  }

  /** `RetrieveByCouponIDUserID`: the grant of that coupon to that user; ErrNoRows when none. */
  function RetrieveByCouponIdUserId(t: Table, couponId: int, userId: int, fails: bool): (r: Result<UserCoupon, DbError>)
    ensures fails ==> r == Err(DriverError)
    ensures !fails ==> (r == Err(ErrNoRows) <==> forall g :: g in t ==> !Matches(g, couponId, userId))
    ensures r.Ok? ==> r.value in t && Matches(r.value, couponId, userId)
  {
    if fails then Err(DriverError)
    else match Rows.First(t, (g: UserCoupon) => Matches(g, couponId, userId))
      case Some(g) => Ok(g)
      case None => Err(ErrNoRows)
  }

  /** After a grant is created for (coupon, user), the lookup of that pair succeeds. */
  lemma RetrieveAfterCreate(t: Table, data: UserCoupon)
    ensures RetrieveByCouponIdUserId(Create(t, data, false).1, data.couponId, data.userId, false).Ok?
  {
    Rows.FirstAppend(t, data, (g: UserCoupon) => Matches(g, data.couponId, data.userId));
  }
}

=== FILE: user_entity.dfy ===
/**
 * Rows of the user component. The user columns are nullable text: a NULL
 * column never equals a value in a WHERE clause and reads as "".
 */
module UserEntity {
  import opened Wrappers
  import opened PgTypes

  datatype User = User(id: int, userName: Text, password: Text, name: Text, email: Text, role: Text)

  /** One login: who, from where, with which token, and when the session ended (None while open). */
  datatype LoginHistory = LoginHistory(
    userId: int,
    ip: string,
    userAgent: string,
    accessToken: string,
    loginAt: Time,
    logoutAt: Option<Time>)
}

=== FILE: user_repo.dfy ===
/** The users table. */
module UserRepo {
  import opened Wrappers
  import opened Status
  import opened PgTypes
  import opened UserEntity
  import Rows

  /** The rows in insertion order, and the next value of the id sequence. */
  datatype Table = Table(rows: seq<User>, nextId: int)

  /** `RetrieveByUserName`: the row whose user_name equals the argument; ErrNoRows when none does. */
  function RetrieveByUserName(t: Table, userName: string, fails: bool): (r: Result<User, DbError>)
    ensures fails ==> r == Err(DriverError)
    ensures !fails ==> (r == Err(ErrNoRows) <==> forall u :: u in t.rows ==> !TextEquals(u.userName, userName))
    ensures r.Ok? ==> r.value in t.rows && TextEquals(r.value.userName, userName)
  {
    if fails then Err(DriverError)
    else match Rows.First(t.rows, (u: User) => TextEquals(u.userName, userName))
      case Some(u) => Ok(u)
      case None => Err(ErrNoRows)
  }

  /** `RetrieveByEmail`: the row whose email equals the argument; ErrNoRows when none does. */
  function RetrieveByEmail(t: Table, email: string, fails: bool): (r: Result<User, DbError>)
    ensures fails ==> r == Err(DriverError)
    ensures !fails ==> (r == Err(ErrNoRows) <==> forall u :: u in t.rows ==> !TextEquals(u.email, email))
    ensures r.Ok? ==> r.value in t.rows && TextEquals(r.value.email, email)
  {
    if fails then Err(DriverError)
    else match Rows.First(t.rows, (u: User) => TextEquals(u.email, email))
      case Some(u) => Ok(u)
      case None => Err(ErrNoRows)
  }

  /** `Create`: insert every column but the id, which the sequence assigns, and return it. */
  function Create(t: Table, data: User, fails: bool): (r: (Result<int, DbError>, Table))
    ensures fails ==> r == (Err(DriverError), t)
    ensures !fails ==> r.0 == Ok(t.nextId) && r.1.rows == t.rows + [data.(id := t.nextId)]
    ensures !fails ==> r.1.nextId > t.nextId
  {
    if fails then (Err(DriverError), t)
    else (Ok(t.nextId), Table(t.rows + [data.(id := t.nextId)], t.nextId + 1))
  }

  /**
   * `UpdatePassword`: set the password of every row with that email and
   * touch nothing else; ErrNoRows when no row matched.
   */
  function UpdatePassword(t: Table, email: string, password: string, fails: bool): (r: (Outcome<DbError>, Table))
    ensures fails ==> r == (Fail(DriverError), t)
    ensures !fails ==> (r.0 == Fail(ErrNoRows) <==> forall u :: u in t.rows ==> !TextEquals(u.email, email))
    ensures r.0.Fail? ==> r.1 == t
    ensures |r.1.rows| == |t.rows| && r.1.nextId == t.nextId
    ensures forall i :: 0 <= i < |t.rows| ==>
      r.1.rows[i] == if r.0.Pass? && TextEquals(t.rows[i].email, email)
                     then t.rows[i].(password := Text(password, true)) else t.rows[i]
  {
    if fails then (Fail(DriverError), t)
    else if Rows.Count(t.rows, (u: User) => TextEquals(u.email, email)) == 0 then (Fail(ErrNoRows), t)
    else (Pass, t.(rows := Rows.UpdateWhere(t.rows, (u: User) => TextEquals(u.email, email),
                                            (u: User) => u.(password := Text(password, true)))))
  }

  /** Once a password is updated, the lookup by that email sees the new password. */
  lemma RetrieveAfterUpdatePassword(t: Table, email: string, password: string)
    requires UpdatePassword(t, email, password, false).0.Pass?
    ensures var r := RetrieveByEmail(UpdatePassword(t, email, password, false).1, email, false);
      r.Ok? && r.value.password == Text(password, true)
  {
    var t' := UpdatePassword(t, email, password, false).1;
    var u :| u in t.rows && TextEquals(u.email, email);
    var i :| 0 <= i < |t.rows| && t.rows[i] == u;
    assert t'.rows[i] in t'.rows;
  }
}

=== FILE: wrappers.dfy ===
/** Failure-carrying result types shared by every module of the model. */
module Wrappers {

  /** A value that may be absent: a Go nil pointer or a NULL column. */
  datatype Option<+T> = None | Some(value: T) {
    function GetOr(default: T): T {
      match this
      case Some(v) => v
      case None => default
    }
  }

  /** Either a value or an error, as a Go `(value, error)` pair. */
  datatype Result<+T, +E> = Ok(value: T) | Err(error: E) {
    predicate IsFailure() {
      Err?
    }
  }

  /** An operation that returns only an `error`: nil is `Pass`. */
  datatype Outcome<+E> = Pass | Fail(error: E)
}

=== FILE: xcontext.dfy ===
/**
 * Request-scoped values carried in a Go `context.Context`: the caller's
 * user info and session, plus their expiry helpers.
 */
module XContext {
  import opened Wrappers
  import opened PgTypes

  type Duration = int

  datatype UserInfo = UserInfo(userId: int, role: string, expiredAt: Time)
  datatype Session = Session(ip: string, userAgent: string, accessToken: string)

  /**
   * One `context.WithValue` layer. The user-info and session keys are
   * private to their package, so only the import functions bind them; a
   * bound pointer may still be nil (`None`). Layers added by other code
   * are `OtherBinding`.
   */
  datatype Binding =
    | UserInfoBinding(info: Option<UserInfo>)
    | SessionBinding(session: Option<Session>)
    | OtherBinding(name: string)

  /** The chain of layers, outermost first; a lookup sees the innermost binding. */
  type Context = seq<Binding>

  datatype ContextError = AuthorizationNotValid | SessionNotValid

  /** `Valid`: the token has expired exactly when `now` is strictly after its expiry. */
  function Valid(info: UserInfo, now: Time): (r: Outcome<string>)
    ensures r.Fail? <==> now > info.expiredAt
  {
    if now > info.expiredAt then Fail("token has been expired") else Pass
  }

  /** `AddExpired`: the expiry becomes `now + d`; the rest of the info is kept. */
  function AddExpired(info: UserInfo, now: Time, d: Duration): (r: UserInfo)
    ensures r.expiredAt - now == d
    ensures r.userId == info.userId && r.role == info.role
  {
    info.(expiredAt := now + d)
  }

  /** Freshly extended info is valid until, and including, `now + d`. */
  lemma ValidAfterAddExpired(info: UserInfo, now: Time, d: Duration, later: Time)
    ensures Valid(AddExpired(info, now, d), later).Pass? <==> later <= now + d
  {
  }

  /** The innermost user-info binding, if any. */
  function LatestUserInfo(ctx: Context): (r: Option<Option<UserInfo>>)
    ensures r.Some? ==> UserInfoBinding(r.value) in ctx
    ensures r.None? <==> forall i :: 0 <= i < |ctx| ==> !ctx[i].UserInfoBinding?
  {
    if ctx == [] then None
    else
      var last := ctx[|ctx| - 1];
      var rest := ctx[..|ctx| - 1];
      assert ctx == rest + [last];
      if last.UserInfoBinding? then Some(last.info) else LatestUserInfo(rest)
  }

  /** The innermost session binding, if any. */
  function LatestSession(ctx: Context): (r: Option<Option<Session>>)
    ensures r.Some? ==> SessionBinding(r.value) in ctx
    ensures r.None? <==> forall i :: 0 <= i < |ctx| ==> !ctx[i].SessionBinding?
  {
    if ctx == [] then None
    else
      var last := ctx[|ctx| - 1];
      var rest := ctx[..|ctx| - 1];
      assert ctx == rest + [last];
      if last.SessionBinding? then Some(last.session) else LatestSession(rest)
  }

  function ImportUserInfoToContext(ctx: Context, info: Option<UserInfo>): Context {
    ctx + [UserInfoBinding(info)]
  }

  function ImportSessionToContext(ctx: Context, session: Option<Session>): Context {
    ctx + [SessionBinding(session)]
  }

  /** The imported user info; an error when none was imported or a nil one was. */
  function ExtractUserInfoFromContext(ctx: Context): (r: Result<UserInfo, ContextError>)
    ensures r.Ok? ==> UserInfoBinding(Some(r.value)) in ctx
    ensures (forall i :: 0 <= i < |ctx| ==> !ctx[i].UserInfoBinding?) ==> r == Err(AuthorizationNotValid)
  {
    match LatestUserInfo(ctx)
    case Some(Some(info)) => Ok(info)
    case _ => Err(AuthorizationNotValid)
  }

  /** The imported session; an error when none was imported or a nil one was. */
  function ExtractSessionFromContext(ctx: Context): (r: Result<Session, ContextError>)
    ensures r.Ok? ==> SessionBinding(Some(r.value)) in ctx
    ensures (forall i :: 0 <= i < |ctx| ==> !ctx[i].SessionBinding?) ==> r == Err(SessionNotValid)
  {
    match LatestSession(ctx)
    case Some(Some(s)) => Ok(s)
    case _ => Err(SessionNotValid)
  }

  /** Import then extract gives the info back; a nil import makes extraction fail. */
  lemma UserInfoRoundTrip(ctx: Context, info: Option<UserInfo>)
    ensures info.Some? ==> ExtractUserInfoFromContext(ImportUserInfoToContext(ctx, info)) == Ok(info.value)
    ensures info.None? ==> ExtractUserInfoFromContext(ImportUserInfoToContext(ctx, info)).Err?
  {
    var c := ImportUserInfoToContext(ctx, info);
    assert c[..|c| - 1] == ctx;
  }

  /** The same round trip for sessions. */
  lemma SessionRoundTrip(ctx: Context, session: Option<Session>)
    ensures session.Some? ==> ExtractSessionFromContext(ImportSessionToContext(ctx, session)) == Ok(session.value)
    ensures session.None? ==> ExtractSessionFromContext(ImportSessionToContext(ctx, session)).Err?
  {
    var c := ImportSessionToContext(ctx, session);
    assert c[..|c| - 1] == ctx;
  }

  /** Importing a session does not change what user info is extracted, and vice versa. */
  lemma ImportsAreIndependent(ctx: Context, info: Option<UserInfo>, session: Option<Session>)
    ensures ExtractUserInfoFromContext(ImportSessionToContext(ctx, session)) == ExtractUserInfoFromContext(ctx)
    ensures ExtractSessionFromContext(ImportUserInfoToContext(ctx, info)) == ExtractSessionFromContext(ctx)
  {
    var c1 := ImportSessionToContext(ctx, session);
    assert c1[..|c1| - 1] == ctx;
    var c2 := ImportUserInfoToContext(ctx, info);
    assert c2[..|c2| - 1] == ctx;
  }
}
